=== FILE: README.md ===
# Dark Parchment UI — a Dafny model of the theme engine

Dark Parchment UI is a Unity Mod Manager mod for Pathfinder. It re-colours the
game's UI to look like warm parchment. It does this by multiplying the colours
of `Image` and `RawImage` graphics towards a tint, and by optionally tinting
TextMeshPro text. It can also hide chosen HUD art, such as the action bar
strip, the centre plate or the journal parchment, by making it transparent.
The original colour of every tinted background graphic, and the state of
every hidden HUD graphic, is recorded. Disabling the mod puts those back. Two
things are not undone: text colours are never recorded or restored, and a
graphic that was tinted and then hidden keeps its tint after a full restore.

This project models that engine and proves properties of the model:

- **colors.dfy** (`Colors`): colours as four real channels. It has Unity's
  clamped `Color.Lerp`, the per-channel multiply, and the mod's
  `BlendMultiply`.
- **config.dfy** (`Config`): the mod's settings record, the clamped
  colour getters and the shipped defaults.
- **strings.dfy** (`Strings`): the pieces of .NET string handling the
  engine relies on. These are ASCII lower-casing, substring search, trimming,
  comma splitting and de-duplication.
- **classifier.dfy** (`Classifier`): the name-based classifiers. Each one
  looks at a transform's own name and its ancestors' names, up to a depth
  bound. They cover HUD groups, chat panels, front-end screens, journal
  screens, spell-name text, lore text, HUD art and journal parchment
  backgrounds.
- **exclusion.dfy** (`Exclusion`): the user's exclude-token list. This
  includes its rebuild when the setting changes, and the per-transform memo
  used by the two colour-setter hooks.
- **scenes.dfy** (`Scenes`): the UI as a map from instance id to graphic. A
  missing id is a destroyed object. It also holds the generic "restore what
  was recorded, drop what died" loop shared by the tint and HUD stores.
- **tint.dfy** (`Tint`): the background tint. It covers the
  original-colour store, the per-graphic tint, the per-canvas pass, restore,
  and the reactive hook that re-tints colours the game writes.
- **hud.dfy** (`Hud`): HUD hiding. It covers the snapshot store, hide and
  restore of one graphic, the per-canvas decision and the pass.
- **engine.dfy** (`Engine`): the engine's public entry points over one
  state record, `Applier`. They are `ClearAllTracking`, `RestoreAll`,
  `ReapplyAll`, `ApplyToAllCanvases`, `ApplyTextToAll`, `TintTextIncoming`
  and `ApplyHudVisibilityNow`.
- **patches.dfy** (`Patches`): the two Harmony prefixes, on
  `Graphic.set_color` and on `TMP_Text.set_color`.
- **controller.dfy** (`Controller`): the enable/disable state machine and
  the bounded retry loop run after enabling and after each scene load.

## How the model reads the program

- **Engine state.** The engine's static dictionaries and lists become
  immutable values threaded through pure functions. The "suppress patches"
  flag and the current-text transform are fields of `Applier`. Every public
  pass leaves the flag cleared. The flag is not reentrant: the pass nested
  inside `ReapplyAll` already clears it. The model claims nothing about
  nesting.
- **Unity's object graph.** `FindObjectsOfType` results are passed in as
  sequences of canvases (`Option<Canvas>`, where `None` is a destroyed
  canvas) and of text ids.
- **Scene walks.** A canvas lists its image and raw-image descendants in
  traversal order, and each transform carries its name chain, self first.
  A pass over a canvas is a fold over a work list of `Item(slot, id)`
  entries. The slot picks the image table or the raw-image table, as the
  source's two loops do.
- **Numbers.** Unity's `float` is modelled as `real`. Every clamp and
  threshold of the source (`0.0001`, `0.35`, `600 x 400`, depth bounds) is
  kept literally.
- **Restore order.** Restore always undoes the tint first and the HUD
  hiding second, as `RestoreAll` does. A graphic that was tinted and then
  hidden has its HUD snapshot taken after the tint. So after a full restore
  it keeps the tinted colour. `Engine.TintThenHideSurvivesRestore` states
  this exactly. Restoring in the opposite order would instead break a
  graphic that was hidden and then tinted, so neither order is evidently
  the intended one. The behaviour is recorded as a property, not as a
  defect.
- **Text tint.** `ApplyTextToAll` re-tints a text's *current* colour and
  keeps no original. Repeated passes therefore compound, as
  `Engine.TextPassCompounds` shows on concrete values.
- **Exclusion memo.** The memo used by the hooks is consulted before the
  token list is refreshed. A cached verdict can therefore reflect an older
  token list until the next miss or the next pass. The properties about
  excluded graphics state this by assuming the token key is current.

## Model

| member | source | states |
|---|---|---|
| Colors.Clamp01 | ThemeApplier.cs:947 | the result lies in [0,1], equals the input when the input is already there, and is 0 below 0 and 1 above 1 |
| Colors.Clamp01Idempotent | Settings.cs:92 | clamping twice is clamping once |
| Colors.LerpChannelBetween | ThemeApplier.cs:929-938 | a channel interpolated with a weight in [0,1] lies between its two end points |
| Colors.Lerp | ThemeApplier.cs:929-938 | Unity's clamped lerp returns the first colour at weight 0 or less and the second at 1 or more; each RGB channel lies between the end points; equal alphas are kept; unit colours stay unit colours |
| Colors.MultiplyUnit | ThemeApplier.cs:929-938 | multiplying two unit colours gives a unit colour that is nowhere brighter than the first |
| Colors.BlendMultiply | ThemeApplier.cs:929-938 | strength 0 leaves the original colour, strength 1 gives the full multiply, and for unit colours the blend stays in range and never brightens the original |
| Config.TintColor | Settings.cs:32-33 | the background tint is a unit colour with alpha equal to the clamped alpha multiplier, and in-range RGB settings pass through unchanged |
| Config.ChatTintColor | Settings.cs:43-44 | the chat tint is a unit colour with alpha 1 whose in-range RGB settings pass through unchanged |
| Config.TextTintColor | Settings.cs:83-84 | the text ink is a unit colour with alpha 1 whose in-range RGB settings pass through unchanged |
| Config.Default | Settings.cs:12-90 | the shipped defaults are enabled at strength 0.35 with tint (0.92, 0.86, 0.75, 1), have chat and text tint off, hide no HUD group, and have an empty exclude list |
| Strings.LowerChar | ThemeApplier.cs:857-872 | a lowered character is never upper case, and non-upper-case characters are unchanged |
| Strings.Lower | ThemeApplier.cs:857-872 | lowering keeps the length, lowers each character in place, and yields a lowered string |
| Strings.LowerOfLowered | ThemeApplier.cs:857-872 | lowering an already lowered string changes nothing |
| Strings.ContainsIff | ThemeApplier.cs:857-872 | the substring test holds exactly when the pattern occurs at some index |
| Strings.ContainsTransitive | ThemeApplier.cs:908-927 | a string containing a string that contains a token contains the token |
| Strings.LeadingSpace | ThemeApplier.cs:891-906 | the leading-blank count covers only white space and stops at the first non-blank character |
| Strings.TrailingSpace | ThemeApplier.cs:891-906 | the trailing-blank count covers only white space and stops at the last non-blank character |
| Strings.Trim | ThemeApplier.cs:891-906 | the trimmed string has no blank at either end, is a slice of the input with only white space outside it, and is empty exactly when the input is all white space |
| Strings.TrimOfPadded | ThemeApplier.cs:891-906 | a trimmed, non-empty slice with only white space around it is exactly what trimming returns |
| Strings.TrimUnpads | ThemeApplier.cs:891-906 | padding a trimmed, non-empty string with white space on both sides and trimming gives it back, so trimming removes nothing but end white space |
| Strings.LowerKeepsTrimmed | ThemeApplier.cs:891-906 | lowering a trimmed token keeps it trimmed |
| Strings.FirstComma | ThemeApplier.cs:891-906 | the first-comma index has no comma before it and points at a comma when inside the string |
| Strings.UncommaAppend | ThemeApplier.cs:891-906 | removing commas distributes over concatenation |
| Strings.UncommaAtFirstComma | ThemeApplier.cs:891-906 | removing commas from a string is its prefix up to the first comma followed by the rest with commas removed |
| Strings.SplitComma | ThemeApplier.cs:891-906 | splitting with empty entries removed gives non-empty comma-free parts whose concatenation is the input without its commas |
| Strings.PiecesJoin | ThemeApplier.cs:891-906 | the reference fields of a string hold no comma and, joined with commas, give the string back |
| Strings.PiecesAtFirstComma | ThemeApplier.cs:891-906 | the first reference field ends at the first comma, and a comma-free string is one field |
| Strings.SplitCommaIsRuns | ThemeApplier.cs:891-906 | splitting gives exactly the non-empty comma-separated fields, in order, so "ab" stays one part |
| Strings.DistinctFrom | ThemeApplier.cs:891-906 | the result has no duplicates and holds exactly the input elements not already seen |
| Strings.Distinct | ThemeApplier.cs:891-906 | the result has no duplicates and holds exactly the input's elements |
| Classifier.NameHasAnyIff | ThemeApplier.cs:857-872 | the ancestor-name test holds exactly when some transform within the depth bound has a non-empty name whose lower-cased form contains a token |
| Classifier.NameHasAnyDeeper | ThemeApplier.cs:857-872 | a match within a depth bound is still a match within any larger bound |
| Classifier.HudGroupsRespectScreens | ThemeApplier.cs:730-855 | HUD groups never match on front-end or non-HUD screens; the dialogue panel is exactly a chat panel outside those screens; portrait art is never the centre plate; map transforms are never the cast bars or the action bar |
| Classifier.IsExcluded | ThemeApplier.cs:908-927 | an empty token list excludes nothing |
| Classifier.ExcludedByMatch | ThemeApplier.cs:908-927 | a transform is excluded whenever one of its first 14 non-empty names contains a token |
| Classifier.IsHudArtCandidate | ThemeApplier.cs:672-706 | HUD art is never a tiny graphic or an icon-like name unless its name says it is background art |
| Classifier.IsJournalParchmentBackgroundCandidate | ThemeApplier.cs:709-726 | a journal parchment candidate is at least 600 by 400 and its own name mentions "background" or "bg" |
| Classifier.NameHasAny | ThemeApplier.cs:857-872 | defined by its body: walks self and ancestors up to the depth bound and tests each non-empty lower-cased name; its meaning is stated by Classifier.NameHasAnyIff |
| Classifier.IsNonHudScreen | ThemeApplier.cs:848-855 | defined by its body: a non-HUD-screen token within 28 levels |
| Classifier.IsFrontEndScreen | ThemeApplier.cs:809-815 | defined by its body: a front-end token within 32 levels |
| Classifier.IsJournalLikeScreen | ThemeApplier.cs:802-807 | defined by its body: a journal-like token within 28 levels |
| Classifier.IsChatPanel | ThemeApplier.cs:795-800 | defined by its body: a chat token within 18 levels |
| Classifier.IsGameplayHudCanvas | ThemeApplier.cs:817-829 | defined by its body: no veto token and some HUD-canvas token within 40 levels |
| Classifier.IsLeftCastBars | ThemeApplier.cs:730-738 | defined by its body: outside blocked screens and maps, a cast-bar token within 18 levels; Classifier.HudGroupsRespectScreens states the screen and map vetoes |
| Classifier.IsActionBarStrip | ThemeApplier.cs:740-749 | defined by its body: outside blocked screens and maps, an action-bar token within 18 levels; Classifier.HudGroupsRespectScreens states the vetoes |
| Classifier.IsPortraitLike | ThemeApplier.cs:785-793 | defined by its body: outside blocked screens, a portrait token within 20 levels |
| Classifier.IsCenterHudPlate | ThemeApplier.cs:751-760 | defined by its body: outside blocked screens and not portrait art, a centre-plate token within 18 levels |
| Classifier.IsRightHudButtons | ThemeApplier.cs:762-769 | defined by its body: outside blocked screens, a right-button token within 18 levels |
| Classifier.IsDialoguePanel | ThemeApplier.cs:771-778 | defined by its body: a chat panel outside blocked screens, as Classifier.HudGroupsRespectScreens states |
| Classifier.IsHudGroup12345 | ThemeApplier.cs:780-783 | defined by its body: the union of the five HUD groups and portrait art |
| Classifier.IsSpellNameText | ThemeApplier.cs:831-836 | defined by its body: a spell-name token within 10 levels, a spell context within 18, and no body-text token within 8 |
| Classifier.IsJournalOrEncyclopediaText | ThemeApplier.cs:838-846 | defined by its body: a lore-text token within 40 levels |
| Classifier.IsSmall | ThemeApplier.cs:940-945 | defined by its body: a rectangle exists and both sides are at most the limit |
| Classifier.BgSuffixes | ThemeApplier.cs:709-726 | every parchment-specific name suffix the source lists already contains "bg" |
| Exclusion.CleanParts | ThemeApplier.cs:891-906 | every kept part is a trimmed, lowered, non-empty token, and the tokens are exactly the cleaned forms of the parts that survive |
| Exclusion.BuildExcludeTokens | ThemeApplier.cs:891-906 | a missing or empty setting gives no tokens; the tokens are distinct and well formed and are exactly the trimmed, lower-cased, non-empty comma-separated entries |
| Exclusion.ExcludeTokensFromRuns | ThemeApplier.cs:891-906 | a token is built exactly when some non-empty comma-separated field of the setting trims and lower-cases to it |
| Exclusion.EnsureExcludeCache | ThemeApplier.cs:876-889 | afterwards the key is the current setting; an unchanged key leaves the cache as it was; a changed key rebuilds the tokens and clears both memos |
| Exclusion.EnsureRefreshesTokens | ThemeApplier.cs:876-889 | from a cache whose tokens match its key, ensuring yields the tokens built from the setting, keeps them matching, and a second ensure changes nothing |
| Exclusion.InitialCacheIsCurrent | ThemeApplier.cs:36-40 | the initial empty key and empty token list agree |
| Exclusion.IsExcludedForPatch | ThemeApplier.cs:268-281 | a missing transform is excluded; a memo hit answers from the memo without refreshing; a miss refreshes the tokens, computes HUD group, chat or token exclusion, and records it |
| Exclusion.IsExcludedForText | ThemeApplier.cs:394-407 | a missing transform is excluded; a memo hit answers from the memo; a miss refreshes the tokens, computes HUD group or token exclusion, and records it |
| Exclusion.EnsureKeepsMemoSound | ThemeApplier.cs:876-889 | refreshing the token list keeps every memo entry equal to the verdict it caches |
| Exclusion.PatchMemoTransparent | ThemeApplier.cs:268-281 | over a sound memo, the patch verdict equals the verdict computed from the current tokens, and the memo stays sound |
| Exclusion.TextMemoTransparent | ThemeApplier.cs:394-407 | over a sound memo, the text verdict equals the verdict computed from the current tokens, and the memo stays sound |
| Scenes.LiveOnly | ThemeApplier.cs:228-249 | pruning keeps exactly the tracked ids whose objects still exist, without introducing duplicates |
| Scenes.LiveOnlySameKeys | ThemeApplier.cs:228-249 | which tracked entries survive pruning depends only on which objects exist, not on their state |
| Scenes.RestoredSkipsDead | ThemeApplier.cs:228-249 | a destroyed tracked object is skipped by restore and dropped from the tracking list |
| Scenes.RestoredStep | ThemeApplier.cs:228-249 | a live tracked object gets its recorded value back and stays tracked |
| Scenes.RestoreTracked | ThemeApplier.cs:228-249 | the restore loop writes every live tracked object's recorded value and returns the tracking list pruned of destroyed objects |
| Scenes.Items | ThemeApplier.cs:140-204 | a work list holds one entry per id, in order, all in the given slot |
| Scenes.RootWorkWellTyped | ThemeApplier.cs:140-204 | the work list of one canvas pairs every image with the image slot and every raw image with the raw slot |
| Scenes.AllWorkWellTyped | ThemeApplier.cs:96-121 | the work list over all canvases is well typed whenever each canvas is |
| Tint.EmptyStore | ThemeApplier.cs:15-19 | the empty tint store satisfies the store invariant |
| Tint.TintGraphic | ThemeApplier.cs:206-226 | the first visit records the original colour and tracks the graphic, later visits keep the record, and the graphic is set to the blend of its recorded original |
| Tint.TintGraphicNoDrift | ThemeApplier.cs:206-226 | tinting a graphic twice gives the same table and scene as tinting it once |
| Tint.TintDecision | ThemeApplier.cs:140-204 | chat panels are tinted exactly when chat tint is on, with the chat colour and strength; other graphics are tinted exactly when the mod is on, the graphic is not in a HUD group (unless it sits on a journal-like screen), it is not excluded by a token, and it is not a skipped small image |
| Tint.TintStep | ThemeApplier.cs:140-204 | defined by its body: one iteration of the image or raw-image loop, skipping a destroyed graphic and otherwise tinting as Tint.TintDecision says; Tint.TintStepShape and Tint.TintStepConsistent state its effect |
| Tint.TintPass | ThemeApplier.cs:140-204 | defined by its body: TintStep over the work list in order; Tint.TintPassSettles, Tint.TintPassSkipsUntinted and Tint.TintPassIdempotent state its effect |
| Tint.ApplyToRoot | ThemeApplier.cs:140-204 | defined by its body: one tint pass over the canvas's image and raw-image work list; Tint.TintPassSettles, Tint.TintPassConsistent and Tint.TintPassIdempotent state its effect |
| Tint.ApplyToCanvases | ThemeApplier.cs:96-121 | defined by its body: ApplyToRoot on each live canvas in order; Tint.ApplyToCanvasesIsOnePass, Tint.ApplyToCanvasesShape and Tint.ApplyToCanvasesIdempotent state its effect |
| Tint.TintPassAppend | ThemeApplier.cs:140-204 | a pass over two work lists in sequence is the pass over their concatenation |
| Tint.ApplyToCanvasesIsOnePass | ThemeApplier.cs:96-121 | the pass over all canvases equals a single pass over the concatenated work list |
| Tint.TintStepShape | ThemeApplier.cs:140-204 | one tint step changes only colours and never forgets a recorded original |
| Tint.TintPassShape | ThemeApplier.cs:140-204 | a tint pass changes only colours and never forgets a recorded original |
| Tint.ApplyToCanvasesShape | ThemeApplier.cs:96-121 | the all-canvas pass changes only colours and never forgets a recorded original |
| Tint.TintPassKeepsSettled | ThemeApplier.cs:140-226 | a graphic already showing the blend of its recorded original stays that way through any later pass |
| Tint.TintPassSettles | ThemeApplier.cs:140-226 | after a pass every graphic on the work list is settled: tinted ones show the blend of their original and untinted ones are unchanged |
| Tint.TintPassSkipsUntinted | ThemeApplier.cs:140-204 | a graphic the decision does not tint, or one not on the work list, keeps its exact state |
| Tint.SettledPassIsNoOp | ThemeApplier.cs:140-226 | a pass over a settled work list changes neither the store nor the scene |
| Tint.TintPassIdempotent | ThemeApplier.cs:140-226 | running the same pass twice gives the same store and scene as running it once |
| Tint.ApplyToCanvasesIdempotent | ThemeApplier.cs:96-121 | running the background tint twice over the same canvases is the same as running it once |
| Tint.RestoreTintOnly | ThemeApplier.cs:228-249 | restore puts every live tracked graphic back to its recorded original and keeps only the live entries |
| Tint.RestoreShowsOriginals | ThemeApplier.cs:228-249 | after restore every live graphic with a recorded original shows exactly that colour |
| Tint.RestoreTwiceIsOnce | ThemeApplier.cs:228-249 | restoring again after a restore changes nothing |
| Tint.RestoreOverRestored | ThemeApplier.cs:228-249 | a second restore over the pruned store leaves the colours the first restore produced |
| Tint.LiveOnlyIdempotent | ThemeApplier.cs:228-249 | pruning destroyed objects twice is pruning once |
| Tint.TintThenRestore | ThemeApplier.cs:206-249 | tinting a fresh graphic and then restoring gives back the original scene |
| Tint.EmptyStoreConsistent | ThemeApplier.cs:15-19 | an empty store is consistent with an untouched scene |
| Tint.RestoreRecovers | ThemeApplier.cs:228-249 | restore from any store consistent with a starting scene gives back that scene |
| Tint.TintStepConsistent | ThemeApplier.cs:140-226 | one tint step keeps the store consistent with the scene before any tinting |
| Tint.TintPassConsistent | ThemeApplier.cs:140-226 | a tint pass keeps the store consistent with the scene before any tinting |
| Tint.TintRoundTrip | ThemeApplier.cs:96-249 | tinting all canvases from a consistent store and then restoring gives back the original scene |
| Tint.TintIncomingStable | ThemeApplier.cs:284-325 | weak strength or a non-image passes the value through; otherwise the first write becomes the original and every write is replaced by the blend of the recorded original, with the incoming alpha kept |
| Tint.HostWrites | ThemeApplier.cs:284-325 | defined by its body: the game assigning a sequence of colours through the hook one after another; Tint.NoTintStacking states its effect |
| Tint.NoTintStacking | ThemeApplier.cs:284-325 | however many times the game writes a colour, the result is the blend of the first recorded original, never a tint of a tint |
| Tint.HookAgreesWithPass | ThemeApplier.cs:284-325 | for a graphic the pass already tinted, the hook shows the same RGB as the pass did |
| Tint.TintIncoming | ThemeApplier.cs:252-266 | weak strength passes the colour through; otherwise the RGB is the blend with the background tint, and alpha is always kept |
| Tint.TintIncomingMatchesFirstWrite | ThemeApplier.cs:252-325 | on a graphic's first write, the stable hook gives exactly what the stateless hook gives |
| Hud.EmptyStore | ThemeApplier.cs:29-33 | the empty HUD store satisfies the store invariant |
| Hud.HideHudGraphic | ThemeApplier.cs:577-612 | a selectable target is left alone; otherwise the first hide snapshots the state, clears raycast and makes it fully transparent, keeping RGB and enabled |
| Hud.RestoreHudGraphic | ThemeApplier.cs:614-638 | a graphic without a snapshot is unchanged; otherwise its enabled flag, raycast flag and colour are put back |
| Hud.HideThenRestore | ThemeApplier.cs:577-638 | hiding a fresh graphic and restoring it gives back the original scene |
| Hud.HideAndRestoreIdempotent | ThemeApplier.cs:577-638 | hiding twice is hiding once, and restoring twice is restoring once |
| Hud.HudDecision | ThemeApplier.cs:452-575 | on journal screens the parchment background is hidden exactly when allowed and switched on, otherwise restored; elsewhere nothing happens unless HUD groups are allowed, and a graphic is then hidden exactly when it is not portrait-like, a switched-on toggle asks for one of its groups (dialogue panels included), and, if it is in the Left or Action group, it passes the HUD-art filter; every other graphic is restored |
| Hud.NoTogglesNoHiding | ThemeApplier.cs:452-575 | with every HUD toggle off nothing is ever hidden |
| Hud.CanvasHudMode | ThemeApplier.cs:411-450 | front-end canvases are skipped; gameplay HUD canvases allow HUD groups only; journal canvases allow parchment only, and only when that toggle is on |
| Hud.NoTogglesKeepStore | ThemeApplier.cs:452-575 | with every HUD toggle off a pass records no snapshot |
| Hud.RestoreHudOnly | ThemeApplier.cs:640-655 | HUD restore puts every live snapshotted graphic back and keeps only the live entries |
| Hud.EmptyStoreConsistent | ThemeApplier.cs:29-33 | an empty HUD store is consistent with an untouched scene |
| Hud.RestoreRecovers | ThemeApplier.cs:640-655 | HUD restore from a store consistent with a starting scene gives back that scene |
| Hud.RestoreStaysConsistent | ThemeApplier.cs:640-655 | after a HUD restore the pruned store is still consistent with the starting scene |
| Hud.HideKeepsConsistent | ThemeApplier.cs:577-612 | hiding a graphic from its own table keeps every snapshot equal to the pre-hiding state |
| Hud.RestoreGraphicKeepsConsistent | ThemeApplier.cs:614-638 | restoring one graphic from its own table keeps the store consistent with the pre-hiding scene |
| Hud.HudStep | ThemeApplier.cs:452-575 | defined by its body: one iteration of the per-graphic loop, skipping a destroyed graphic and otherwise hiding, restoring or leaving it as Hud.HudDecision says; Hud.HudStepConsistent states its effect |
| Hud.HudStepConsistent | ThemeApplier.cs:452-638 | one hide-or-restore step keeps the store consistent with the scene before any hiding |
| Hud.HudPass | ThemeApplier.cs:452-575 | defined by its body: one hide-or-restore step per work item, in order; Hud.HudPassConsistent and Hud.NoTogglesKeepStore state its effect |
| Hud.ApplyHudToCanvas | ThemeApplier.cs:411-450 | defined by its body: a destroyed canvas or one Hud.CanvasHudMode skips is left alone, any other gets a HUD pass in its mode |
| Hud.ApplyHudVisibility | ThemeApplier.cs:411-450 | defined by its body: ApplyHudToCanvas on each canvas in order; Hud.HudRoundTrip states that a restore undoes it |
| Hud.HudPassConsistent | ThemeApplier.cs:452-638 | a HUD pass keeps the store consistent with the scene before any hiding |
| Hud.HudRoundTrip | ThemeApplier.cs:411-655 | applying HUD visibility over all canvases and then restoring gives back the original scene |
| Engine.Initial | ThemeApplier.cs:15-47 | the engine starts with valid empty stores, patches not suppressed and no current text |
| Engine.ClearAllTracking | ThemeApplier.cs:51-65 | clearing empties both tint tables, both HUD tables and both memos, and keeps the token key, token list and flags |
| Engine.ClearedRestoreIsNoOp | ThemeApplier.cs:51-79 | after clearing, neither restore changes the scene |
| Engine.RestoreAll | ThemeApplier.cs:67-79 | restore undoes the tint, then the HUD hiding, prunes both stores and leaves patches unsuppressed |
| Engine.RestoreAllUndoesTint | ThemeApplier.cs:67-79 | with no HUD snapshot on the tinted graphics, a full restore gives back the untinted scene |
| Engine.RestoreAllUndoesHiding | ThemeApplier.cs:67-79 | with no tint record on the hidden graphics, a full restore gives back the unhidden scene |
| Engine.TintThenHideSurvivesRestore | ThemeApplier.cs:67-79 | a graphic tinted and then hidden comes back from a full restore showing its tinted colour, not its original |
| Engine.ApplyToAllCanvases | ThemeApplier.cs:96-121 | the pass always refreshes the token list and unsuppresses patches, touches nothing but the tint store otherwise, and does nothing at all when both tints are off |
| Engine.ApplyToAllCanvasesShape | ThemeApplier.cs:96-121 | the pass changes only colours, keeps every recorded original and keeps the engine valid |
| Engine.ApplyToAllCanvasesIdempotent | ThemeApplier.cs:96-121 | running the background pass twice is the same as running it once |
| Engine.ReapplyAll | ThemeApplier.cs:81-93 | reapply is a tint-only restore followed by a fresh background pass, keeping the engine valid and patches unsuppressed |
| Engine.ReapplyDropsStaleTint | ThemeApplier.cs:81-93 | a graphic that no longer qualifies for tint shows its original colour after reapply |
| Engine.TextInkFor | ThemeApplier.cs:357-392 | without a current transform the default ink is used; spell-context text uses the spell colour only for spell names with that toggle on and is left alone otherwise; lore text uses the lore colour when that toggle is on; other text uses the default ink |
| Engine.TintTextIncoming | ThemeApplier.cs:357-392 | alpha is always kept; text without ink is unchanged; inked text lies between its colour and the ink, is unchanged at strength 0 and takes the ink's RGB at strength 1 |
| Engine.TextPassCompounds | ThemeApplier.cs:329-392 | two text passes darken a grey channel from 1 to 0.75 and then to 0.625, so text tint compounds |
| Engine.TextStep | ThemeApplier.cs:329-355 | defined by its body: a destroyed text is skipped, an excluded one only updates the memo, any other gets the text tint of its own colour; Engine.TextStepShape states its effect |
| Engine.TextLoop | ThemeApplier.cs:329-355 | defined by its body: TextStep on each text in order; Engine.TextLoopShape and Engine.TextLoopSkipsExcluded state its effect |
| Engine.TextStepShape | ThemeApplier.cs:329-355 | one text step changes only colours and keeps the token key |
| Engine.TextLoopShape | ThemeApplier.cs:329-355 | the text loop changes only colours and keeps the token key |
| Engine.ApplyTextToAll | ThemeApplier.cs:329-355 | with text tint off nothing happens; otherwise the tokens are refreshed, only colours of the listed texts change, and the engine stays valid |
| Engine.TextLoopSkipsExcluded | ThemeApplier.cs:329-355 | a text excluded by HUD group or token keeps its exact state through the loop |
| Engine.ExcludedTextsUntouched | ThemeApplier.cs:329-355 | a text excluded under the current token list keeps its exact state through the text pass |
| Engine.HudNow | ThemeApplier.cs:123-136 | defined by its body: the HUD store and scene after a HUD restore followed by the HUD pass; Engine.ApplyHudVisibilityNow and Engine.HudNowKeepsRoundTrip state its effect |
| Engine.ApplyHudVisibilityNow | ThemeApplier.cs:123-136 | the HUD-only refresh restores HUD hiding, reapplies it, touches nothing else and leaves patches unsuppressed |
| Engine.HudNowKeepsRoundTrip | ThemeApplier.cs:123-136 | after a HUD-only refresh a HUD restore still gives back the scene before any hiding |
| Patches.GraphicSetColorPrefix | UIElementPatches.cs:18-50 | the hook passes the value through when patches are suppressed, the object is gone or not an image, the mod is off or weak, the graphic is excluded, or it is a skipped small image, and in those last two cases records nothing; otherwise the original is on record afterwards and the returned RGB is the blend of that original with the background tint at the clamped strength; alpha is always kept |
| Patches.ExcludedGraphicsUntouched | UIElementPatches.cs:31-33 | an image excluded by HUD group, chat panel or token gets the game's value unchanged and records nothing |
| Patches.HookWritesAreStable | UIElementPatches.cs:47-48 | two successive game writes to a tinted image produce the same RGB, whatever values were written |
| Patches.Spread | TextPatches.cs:26-31 | the channel spread is never negative and is zero exactly for grey colours |
| Patches.TmpTextSetColorPrefix | TextPatches.cs:15-38 | the text hook passes the value through when suppressed, gone, off or excluded, and for saturated colours when skipping them; an excluded text always keeps the game's value; any other text, unless it is a skipped coloured segment, gets exactly the text tint of that value with its transform current, and no transform is left current; a changed colour lies between the value and the ink; past the early checks the exclude cache is exactly what the text exclude lookup leaves (key and tokens refreshed, the verdict memoised on a miss); alpha is always kept |
| Patches.ExcludedTextUntouchedByHook | TextPatches.cs:23 | a text excluded under the current token list gets the game's value unchanged |
| Patches.HookAgreesWithTextPass | TextPatches.cs:15-38 | the hook's result equals what one text pass would write from the same colour |
| Controller.Enable | UIThemeController.cs:14-24 | enabling an enabled controller does nothing; otherwise it hooks scene loads, ensures the runner, and starts one retry loop |
| Controller.OnSceneLoaded | UIThemeController.cs:39-45 | a scene load starts one retry loop exactly when enabled |
| Controller.Disable | UIThemeController.cs:26-37 | disabling a disabled controller does nothing; otherwise it unhooks, runs a full restore then clears tracking, and destroys the runner |
| Controller.EnableIdempotent | UIThemeController.cs:14-45 | enabling twice is enabling once, and scene loads while disabled do nothing |
| Controller.DelayedApply | UIThemeController.cs:47-66 | the loop runs at most 8 bursts; it finishes exactly when every attempt is enabled and none throws; otherwise it stops at the first disabled or throwing attempt, having run one burst per earlier attempt |

## Left out

- Unity object discovery (`FindObjectsOfType`, `GetComponentsInChildren`, `GetComponent<Selectable>`) is not modelled. Its results are parameters: canvases, per-canvas graphic lists, text lists, and the graphic's selectable-target flag.
- The null checks on `Main.Settings` are not modelled. Settings are always present.
- `float` rounding is not modelled: colours and strengths are reals.
- The coroutine's 0.25-second waits, `Runner` and Harmony registration are not modelled. The retry loop is indexed by attempt. Whether an attempt sees the mod enabled, and whether it throws, are parameters.
- Logging (`Main.Logger`) is left out.
- `Settings.Save` persistence and the `[Draw]` menu attributes are left out. They have no effect on colours.
- The dictionaries' and lists' initial capacities are left out; they carry no behaviour.
- `SetCurrentTextTransform` and `ClearCurrentTextTransform` have no members of their own. They appear as the `currentText` field that the text hook sets and clears.
- No modelled file calls `ApplyHudVisibilityNow`. The menu code calls a differently named method, and that code is not part of this model. The method is modelled as written.
- No other modelled member calls the stateless `TintIncoming`, and the same is true in the source. It is modelled for completeness.
- Text colours are never restored. `ApplyTextToAll` keeps no original for a text, and `RestoreAll` touches only the tint and HUD stores, so disabling the mod leaves text tinted until the game writes it again. The model keeps this behaviour.
- Strings.LowerChar and Strings.Lower fold only the ASCII capitals A to Z. .NET `ToLowerInvariant` folds every Unicode capital, so a token or name with a non-ASCII capital (such as "Ä") matches in the program but not in the model.
- The `Graphic.set_color` hook does not apply the journal-screen exception or the chat tint that the background pass uses. As written, it can disagree with the pass on those graphics. The model keeps that behaviour.
- A full restore does not return a tinted-then-hidden graphic to its original colour. This is recorded as behaviour (`Engine.TintThenHideSurvivesRestore`) rather than as a defect.
- Patches.ExcludedGraphicsUntouched and Patches.ExcludedTextUntouchedByHook assume the token key is already current. A memo hit does not refresh the tokens, so after the token setting changes, a cached verdict may be stale until the next miss or pass.
- UMMMenu.cs, Main.cs, Runner.cs and Logger.cs are not part of this model. They are the settings UI, the mod entry point, the coroutine host and logging.

=== FILE: classifier.dfy ===
/**
 * The name-token classifier of ThemeApplier: a transform is seen through its
 * chain of names (its own first, then each ancestor's, "" for a null or empty
 * name), and every role test is a case-insensitive substring search over a
 * bounded prefix of that chain.  The geometry tests read a rectangle that is
 * absent when the graphic has no RectTransform.
 */
module Classifier {
  import opened Options
  import opened Strings

  datatype Size = Size(width: real, height: real)

  /** A transform: its instance id and its name chain, own name first. */
  datatype Node = Node(id: int, names: seq<string>)

  // ---------------------------------------------------------------- tokens

  const MapTokens: seq<string> := ["map", "minimap", "worldmap", "areamap", "localmap"]
  const LeftTokens: seq<string> :=
    ["groups", "group", "unitgroup", "grouppanel", "castbar", "leftbar", "leftpanel"]
  const ActionTokens: seq<string> :=
    ["actionbar", "abilitybar", "hotbar", "spellbar", "commandbar", "quickbar", "skillbar", "itembar"]
  const CenterTokens: seq<string> :=
    ["center", "mainpanel", "centerpanel", "unitpanel", "partybar", "mainbar", "hudplate", "backplate", "uipanel"]
  const RightTokens: seq<string> :=
    ["sidebuttons", "rightbuttons", "utilitybuttons", "rightpanel", "hudright", "hudbuttons"]
  /** Shared by the dialogue HUD group and the chat-panel test. */
  const ChatTokens: seq<string> :=
    ["dialog", "dialogue", "conversation", "chat", "combatlog", "log", "history", "textbox"]
  const PortraitTokens: seq<string> :=
    ["portrait", "portraits", "charportrait", "unitportrait", "avatar", "charactericon", "partyicon", "unitframe"]
  const JournalTokens: seq<string> := ["journal", "questjournal", "encyclopedia", "codex", "glossary", "lore"]
  const FrontEndTokens: seq<string> :=
    ["mainmenu", "title", "frontend", "front_end", "credits", "license", "newgame", "continue", "loadgame",
     "settings", "options"]
  const NotHudCanvasTokens: seq<string> :=
    ["inventory", "stash", "sharedstash", "loot", "vendor", "trade", "spellbook", "journal", "encyclopedia",
     "codex", "glossary", "character", "mythic", "map", "worldmap", "areamap", "minimap", "localmap"]
  const HudCanvasTokens: seq<string> :=
    ["hud", "ingame", "in_game", "gameui", "game_ui", "surfacehud", "uimain", "mainui"]
  const SpellNameTokens: seq<string> := ["spellname", "abilityname", "name", "title", "header"]
  const SpellContextTokens: seq<string> := ["spell", "ability", "spellbook", "tooltip", "inspect"]
  const BodyTextTokens: seq<string> := ["description", "desc", "body", "text"]
  const LoreTextTokens: seq<string> :=
    ["journal", "questjournal", "quest", "encyclopedia", "codex", "glossary", "lore", "commonterms", "terms",
     "tutorial", "basics", "page", "entry", "article", "bookmark", "book", "scrollview", "scroll", "viewport",
     "content", "body", "description"]
  const NonHudTokens: seq<string> :=
    ["journal", "encyclopedia", "spellbook", "inventory", "character", "mythic", "map", "worldmap", "areamap",
     "minimap", "localmap", "stash", "sharedstash", "loot", "vendor", "trade"]
  const ArtTokens: seq<string> := ["bg", "background", "back", "paper", "parchment", "decor", "art"]
  const IconTokens: seq<string> := ["icon", "button", "slot", "ability", "spell", "skill"]

  // ---------------------------------------------------------------- matching

  /** Some token is a substring of `lower`. */
  predicate AnyContains(lower: string, tokens: seq<string>) {
    exists j :: 0 <= j < |tokens| && Contains(lower, tokens[j])
  }

  /** A non-empty name whose lower-cased form contains one of the tokens. */
  predicate NameMatches(name: string, tokens: seq<string>) {
    |name| > 0 && AnyContains(Lower(name), tokens)
  }

  /** ThemeApplier.NameHasAny: the first `maxDepth` names of the chain, self first. */
  function NameHasAny(names: seq<string>, maxDepth: int, tokens: seq<string>): bool
    decreases |names|
  {
    if maxDepth <= 0 || |names| == 0 then false
    else NameMatches(names[0], tokens) || NameHasAny(names[1..], maxDepth - 1, tokens)
  }

  /** The name `k` levels up matches and lies within the depth bound. */
  predicate MatchAtDepth(names: seq<string>, maxDepth: int, tokens: seq<string>, k: int) {
    0 <= k < maxDepth && k < |names| && NameMatches(names[k], tokens)
  }

  /**
   * NameHasAny holds exactly when one of the first `maxDepth` names of the
   * chain is non-empty and contains a token.
   */
  lemma {:induction false} NameHasAnyIff(names: seq<string>, maxDepth: int, tokens: seq<string>)
    ensures NameHasAny(names, maxDepth, tokens) <==> exists k :: MatchAtDepth(names, maxDepth, tokens, k)
    decreases |names|
  {
    if maxDepth <= 0 || |names| == 0 {
      if k :| MatchAtDepth(names, maxDepth, tokens, k) {
        assert false;
      }
    } else if NameMatches(names[0], tokens) {
      assert MatchAtDepth(names, maxDepth, tokens, 0);
    } else {
      var rest, d := names[1..], maxDepth - 1;
      NameHasAnyIff(rest, d, tokens);
      if k :| MatchAtDepth(rest, d, tokens, k) {
        assert MatchAtDepth(names, maxDepth, tokens, k + 1);
      }
      if k :| MatchAtDepth(names, maxDepth, tokens, k) {
        assert k != 0;
        assert MatchAtDepth(rest, d, tokens, k - 1);
      }
    }
  }

  /** Searching further up the chain never loses a match. */
  lemma NameHasAnyDeeper(names: seq<string>, d1: int, d2: int, tokens: seq<string>)
    requires d1 <= d2 && NameHasAny(names, d1, tokens)
    ensures NameHasAny(names, d2, tokens)
  {
    NameHasAnyIff(names, d1, tokens);
    NameHasAnyIff(names, d2, tokens);
    var k :| MatchAtDepth(names, d1, tokens, k);
    assert MatchAtDepth(names, d2, tokens, k);
  }

  // ---------------------------------------------------------------- screens

  /** Screens on which HUD hiding never applies. */
  predicate IsNonHudScreen(names: seq<string>) {
    NameHasAny(names, 28, NonHudTokens)
  }

  predicate IsFrontEndScreen(names: seq<string>) {
    NameHasAny(names, 32, FrontEndTokens)
  }

  /** Either kind of screen that blocks every HUD group. */
  predicate IsBlockedScreen(names: seq<string>) {
    IsNonHudScreen(names) || IsFrontEndScreen(names)
  }

  predicate IsJournalLikeScreen(names: seq<string>) {
    NameHasAny(names, 28, JournalTokens)
  }

  predicate IsChatPanel(names: seq<string>) {
    NameHasAny(names, 18, ChatTokens)
  }

  /** A canvas counts as gameplay HUD only if no inventory/journal/map-like name vetoes it. */
  predicate IsGameplayHudCanvas(names: seq<string>) {
    !NameHasAny(names, 40, NotHudCanvasTokens) && NameHasAny(names, 40, HudCanvasTokens)
  }

  // ---------------------------------------------------------------- HUD groups

  predicate IsLeftCastBars(names: seq<string>) {
    !IsBlockedScreen(names) && !NameHasAny(names, 12, MapTokens) && NameHasAny(names, 18, LeftTokens)
  }

  predicate IsActionBarStrip(names: seq<string>) {
    !IsBlockedScreen(names) && !NameHasAny(names, 12, MapTokens) && NameHasAny(names, 18, ActionTokens)
  }

  predicate IsPortraitLike(names: seq<string>) {
    !IsBlockedScreen(names) && NameHasAny(names, 20, PortraitTokens)
  }

  predicate IsCenterHudPlate(names: seq<string>) {
    !IsBlockedScreen(names) && !IsPortraitLike(names) && NameHasAny(names, 18, CenterTokens)
  }

  predicate IsRightHudButtons(names: seq<string>) {
    !IsBlockedScreen(names) && NameHasAny(names, 18, RightTokens)
  }

  predicate IsDialoguePanel(names: seq<string>) {
    !IsBlockedScreen(names) && NameHasAny(names, 18, ChatTokens)
  }

  /** Member of one of the five HUD groups, or portrait-like. */
  predicate IsHudGroup12345(names: seq<string>) {
    || IsLeftCastBars(names) || IsActionBarStrip(names) || IsCenterHudPlate(names)
    || IsRightHudButtons(names) || IsDialoguePanel(names) || IsPortraitLike(names)
  }

  /**
   * Group membership is vetoed wholesale by a non-HUD or front-end screen,
   * and the dialogue group is exactly the chat-panel test under that veto.
   */
  lemma HudGroupsRespectScreens(names: seq<string>)
    ensures IsBlockedScreen(names) ==> !IsHudGroup12345(names)
    ensures IsDialoguePanel(names) <==> IsChatPanel(names) && !IsBlockedScreen(names)
    ensures IsPortraitLike(names) ==> !IsCenterHudPlate(names)
    ensures NameHasAny(names, 12, MapTokens) ==> !IsLeftCastBars(names) && !IsActionBarStrip(names)
  {
  }

  // ---------------------------------------------------------------- text roles

  predicate InSpellContext(names: seq<string>) {
    NameHasAny(names, 18, SpellContextTokens)
  }

  /** A name-like label inside a spell/tooltip hierarchy that is not a body text. */
  predicate IsSpellNameText(names: seq<string>) {
    NameHasAny(names, 10, SpellNameTokens) && InSpellContext(names) && !NameHasAny(names, 8, BodyTextTokens)
  }

  predicate IsJournalOrEncyclopediaText(names: seq<string>) {
    NameHasAny(names, 40, LoreTextTokens)
  }

  // ---------------------------------------------------------------- user excludes

  /**
   * ThemeApplier.IsExcluded: some non-empty name within 14 levels contains a
   * user token; never true when there are no tokens.
   */
  predicate IsExcluded(names: seq<string>, tokens: seq<string>)
    ensures |tokens| == 0 ==> !IsExcluded(names, tokens)
  {
    |tokens| > 0 && NameHasAny(names, 14, tokens)
  }

  /** An exclude token matching within the 14-level bound excludes the node. */
  lemma ExcludedByMatch(names: seq<string>, tokens: seq<string>, k: int, j: int)
    requires 0 <= k < 14 && k < |names| && |names[k]| > 0
    requires 0 <= j < |tokens| && Contains(Lower(names[k]), tokens[j])
    ensures IsExcluded(names, tokens)
  {
    assert MatchAtDepth(names, 14, tokens, k);
    NameHasAnyIff(names, 14, tokens);
  }

  // ---------------------------------------------------------------- geometry

  /** The graphic's own name, "" for a missing transform. */
  function SelfName(names: seq<string>): string {
    if |names| == 0 then "" else names[0]
  }

  /** Both sides at most `maxSize`; never true without a rectangle. */
  predicate IsSmall(rect: Option<Size>, maxSize: real) {
    rect.Some? && rect.value.width <= maxSize && rect.value.height <= maxSize
  }

  /**
   * ThemeApplier.IsHudArtCandidate: a large-enough Left/Action graphic that
   * looks like background art by name, or, with no icon-like name, by area.
   */
  predicate IsHudArtCandidate(names: seq<string>, rect: Option<Size>)
    ensures IsHudArtCandidate(names, rect) ==>
      rect.Some? && !(rect.value.width <= 90.0 && rect.value.height <= 90.0)
      && rect.value.width > 8.0 && rect.value.height > 8.0
    ensures (rect.Some? && AnyContains(Lower(SelfName(names)), IconTokens)
             && !AnyContains(Lower(SelfName(names)), ArtTokens)) ==> !IsHudArtCandidate(names, rect)
    ensures IsHudArtCandidate(names, rect) && !AnyContains(Lower(SelfName(names)), ArtTokens) ==>
      rect.value.width * rect.value.height >= 12000.0 && (rect.value.width >= 160.0 || rect.value.height >= 160.0)
  {
    if rect.None? then false
    else
      var w := rect.value.width;
      var h := rect.value.height;
      if w <= 90.0 && h <= 90.0 then false
      else if w <= 8.0 || h <= 8.0 then false
      else
        var lower := Lower(SelfName(names));
        if AnyContains(lower, ArtTokens) then true
        else if AnyContains(lower, IconTokens) then false
        else w * h >= 12000.0 && (w >= 160.0 || h >= 160.0)
  }

  /** The raw journal-parchment test, before its consequences are proved. */
  predicate ParchmentNameAndSize(names: seq<string>, rect: Option<Size>) {
    if rect.None? then false
    else if rect.value.width < 600.0 || rect.value.height < 400.0 then false
    else
      var lower := Lower(SelfName(names));
      || Contains(lower, "background")
      || Contains(lower, "parchment_bg")
      || Contains(lower, "paper_bg")
      || Contains(lower, "journal_bg")
      || Contains(lower, "encyclopedia_bg")
      || (Contains(lower, "parchment") && Contains(lower, "bg"))
  }

  /**
   * ThemeApplier.IsJournalParchmentBackgroundCandidate: only a graphic at
   * least 600 by 400 whose own name mentions "background" or "bg" qualifies.
   */
  function IsJournalParchmentBackgroundCandidate(names: seq<string>, rect: Option<Size>): (r: bool)
    ensures r ==> rect.Some? && rect.value.width >= 600.0 && rect.value.height >= 400.0
    ensures r ==> Contains(Lower(SelfName(names)), "background") || Contains(Lower(SelfName(names)), "bg")
  {
    var r := ParchmentNameAndSize(names, rect);
    if r then
      var lower := Lower(SelfName(names));
      BgSuffixes(lower);
      r
    else r
  }

  /** A token with "bg" inside it: any name containing the token contains "bg". */
  lemma CarriesBg(lower: string, token: string, i: int)
    requires OccursAt(token, "bg", i)
    ensures Contains(lower, token) ==> Contains(lower, "bg")
  {
    ContainsAt(token, "bg", i);
    if Contains(lower, token) {
      ContainsTransitive(lower, token, "bg");
    }
  }

  /** Each "_bg"-suffixed token carries "bg" inside it. */
  lemma BgSuffixes(lower: string)
    ensures Contains(lower, "parchment_bg") ==> Contains(lower, "bg")
    ensures Contains(lower, "paper_bg") ==> Contains(lower, "bg")
    ensures Contains(lower, "journal_bg") ==> Contains(lower, "bg")
    ensures Contains(lower, "encyclopedia_bg") ==> Contains(lower, "bg")
  {
    CarriesBg(lower, "parchment_bg", 10);
    CarriesBg(lower, "paper_bg", 6);
    CarriesBg(lower, "journal_bg", 8);
    CarriesBg(lower, "encyclopedia_bg", 13);
  }
}

=== FILE: colors.dfy ===
/**
 * Unity colours over the reals: clamping, linear interpolation and the
 * multiply-blend the theme applies to every background graphic.
 */
module Colors {

  datatype Color = Color(r: real, g: real, b: real, a: real)

  predicate InUnit(x: real) {
    0.0 <= x <= 1.0
  }

  /** Every channel, alpha included, lies in [0, 1]. */
  predicate IsUnit(c: Color) {
    InUnit(c.r) && InUnit(c.g) && InUnit(c.b) && InUnit(c.a)
  }

  /** The three colour channels agree; alpha may differ. */
  predicate SameRgb(x: Color, y: Color) {
    x.r == y.r && x.g == y.g && x.b == y.b
  }

  /** No channel of `x` is brighter than the same channel of `y`. */
  predicate NoBrighter(x: Color, y: Color) {
    x.r <= y.r && x.g <= y.g && x.b <= y.b && x.a <= y.a
  }

  function WithAlpha(c: Color, alpha: real): Color {
    c.(a := alpha)
  }

  /** Clamp01 of both Settings and ThemeApplier: values outside [0, 1] snap to the nearer end. */
  function Clamp01(v: real): (c: real)
    ensures InUnit(c)
    ensures InUnit(v) ==> c == v
    ensures v < 0.0 ==> c == 0.0
    ensures v > 1.0 ==> c == 1.0
  {
    if v < 0.0 then 0.0 else if v > 1.0 then 1.0 else v
  }

  lemma Clamp01Idempotent(v: real)
    ensures Clamp01(Clamp01(v)) == Clamp01(v)
  {
  }

  function LerpChannel(x: real, y: real, t: real): real {
    x + (y - x) * t
  }

  lemma MulNonneg(x: real, y: real)
    requires 0.0 <= x && 0.0 <= y
    ensures 0.0 <= x * y
  {
  }

  /** Scaling a non-negative number by a factor in [0, 1] never enlarges it. */
  lemma ScaleDown(x: real, t: real)
    requires 0.0 <= x && InUnit(t)
    ensures 0.0 <= x * t <= x
  {
    MulNonneg(x, t);
    MulNonneg(x, 1.0 - t);
    assert x * (1.0 - t) == x - x * t;
  }

  /** With t in [0, 1] an interpolated channel lies between its two ends. */
  lemma LerpChannelBetween(x: real, y: real, t: real)
    requires InUnit(t)
    ensures x <= y ==> x <= LerpChannel(x, y, t) <= y
    ensures y <= x ==> y <= LerpChannel(x, y, t) <= x
  {
    var w := y - x;
    var d := w * t;
    assert LerpChannel(x, y, t) == x + d;
    if 0.0 <= w {
      ScaleDown(w, t);
    } else {
      var u := -w;
      ScaleDown(u, t);
      assert d == -(u * t);
    }
  }

  /** `v` lies between `x` and `y`, whichever is the larger. */
  predicate ChannelBetween(v: real, x: real, y: real) {
    (x <= y ==> x <= v <= y) && (y <= x ==> y <= v <= x)
  }

  /** Each colour channel of `c` lies between the same channels of `x` and `y`. */
  predicate RgbBetween(c: Color, x: Color, y: Color) {
    ChannelBetween(c.r, x.r, y.r) && ChannelBetween(c.g, x.g, y.g) && ChannelBetween(c.b, x.b, y.b)
  }

  /** Unity's Color.Lerp: the parameter is clamped to [0, 1] first. */
  function Lerp(x: Color, y: Color, t: real): (c: Color)
    ensures t <= 0.0 ==> c == x
    ensures t >= 1.0 ==> c == y
    ensures RgbBetween(c, x, y)
    ensures x.a == y.a ==> c.a == x.a
    ensures IsUnit(x) && IsUnit(y) ==> IsUnit(c)
  {
    var u := Clamp01(t);
    LerpChannelBetween(x.r, y.r, u);
    LerpChannelBetween(x.g, y.g, u);
    LerpChannelBetween(x.b, y.b, u);
    LerpChannelBetween(x.a, y.a, u);
    Color(LerpChannel(x.r, y.r, u), LerpChannel(x.g, y.g, u),
          LerpChannel(x.b, y.b, u), LerpChannel(x.a, y.a, u))
  }

  /** Interpolating towards two colours with the same RGB gives the same RGB; alpha plays no part. */
  lemma LerpRgbOnly(x: Color, y: Color, y': Color, t: real)
    requires SameRgb(y, y')
    ensures SameRgb(Lerp(x, y, t), Lerp(x, y', t))
  {
  }

  /** Channel-wise product, alpha included. */
  function Multiply(x: Color, y: Color): Color {
    Color(x.r * y.r, x.g * y.g, x.b * y.b, x.a * y.a)
  }

  lemma ProductInUnit(x: real, y: real, p: real)
    requires InUnit(x) && InUnit(y) && p == x * y
    ensures InUnit(p) && p <= x
  {
    ScaleDown(x, y);
  }

  lemma MultiplyUnit(x: Color, y: Color)
    requires IsUnit(x) && IsUnit(y)
    ensures IsUnit(Multiply(x, y))
    ensures NoBrighter(Multiply(x, y), x)
  {
    var m := Multiply(x, y);
    ProductInUnit(x.r, y.r, m.r);
    ProductInUnit(x.g, y.g, m.g);
    ProductInUnit(x.b, y.b, m.b);
    ProductInUnit(x.a, y.a, m.a);
  }

  /**
   * ThemeApplier.BlendMultiply: move the original towards its channel-wise
   * product with the tint by `strength`.  Strength 0 (or less) leaves the
   * colour alone, strength 1 (or more) is the full multiply, and with unit
   * colours the result is a unit colour that is nowhere brighter than the
   * original.
   */
  function BlendMultiply(original: Color, tint: Color, strength: real): (c: Color)
    ensures strength <= 0.0 ==> c == original
    ensures strength >= 1.0 ==> c == Multiply(original, tint)
    ensures IsUnit(original) && IsUnit(tint) ==> IsUnit(c) && NoBrighter(c, original)
  {
    var m := Multiply(original, tint);
    if IsUnit(original) && IsUnit(tint) then
      MultiplyUnit(original, tint);
      var u := Clamp01(strength);
      LerpChannelBetween(original.r, m.r, u);
      LerpChannelBetween(original.g, m.g, u);
      LerpChannelBetween(original.b, m.b, u);
      LerpChannelBetween(original.a, m.a, u);
      Lerp(original, m, strength)
    else
      Lerp(original, m, strength)
  }
}

=== FILE: config.dfy ===
/**
 * The mod's settings object (Settings.cs) as an immutable record, with its
 * field defaults and the three clamped colour getters the engine reads.
 */
module Config {
  import opened Options
  import opened Colors

  datatype Settings = Settings(
    // global background tint
    enabled: bool,
    strength: real,
    tintR: real,
    tintG: real,
    tintB: real,
    alphaMul: real,
    extraExcludeTokens: Option<string>,   // None models a null string
    skipSmallImages: bool,
    smallImageMaxSize: real,
    // chat / info window tint
    enableChatTint: bool,
    chatStrength: real,
    chatTintR: real,
    chatTintG: real,
    chatTintB: real,
    // text tint
    enableTextTint: bool,
    textStrength: real,
    enableSpellNameTint: bool,
    spellNameStrength: real,
    spellNameTintColor: Color,
    enableLoreTextTint: bool,
    loreTextStrength: real,
    loreTextTintColor: Color,
    textR: real,
    textG: real,
    textB: real,
    skipRichTextColoredSegments: bool,
    // HUD hiding
    hideLeftAndActionBar: bool,
    hideCenterAndRightButtons: bool,
    hideDialoguePanel: bool,
    hideJournalBackground: bool)

  /** True when at least one of the four HUD-hiding toggles is on. */
  predicate AnyHudHiding(s: Settings) {
    s.hideLeftAndActionBar || s.hideCenterAndRightButtons || s.hideDialoguePanel || s.hideJournalBackground
  }

  /**
   * The background tint: each channel clamped to [0, 1], with the clamped
   * alpha multiplier as its alpha.
   */
  function TintColor(s: Settings): (c: Color)
    ensures IsUnit(c)
    ensures c.a == Clamp01(s.alphaMul)
    ensures InUnit(s.tintR) && InUnit(s.tintG) && InUnit(s.tintB) ==> c.r == s.tintR && c.g == s.tintG && c.b == s.tintB
  {
    Color(Clamp01(s.tintR), Clamp01(s.tintG), Clamp01(s.tintB), Clamp01(s.alphaMul))
  }

  /** The chat-panel tint: clamped channels and an opaque alpha. */
  function ChatTintColor(s: Settings): (c: Color)
    ensures IsUnit(c) && c.a == 1.0
    ensures InUnit(s.chatTintR) && InUnit(s.chatTintG) && InUnit(s.chatTintB) ==> c.r == s.chatTintR && c.g == s.chatTintG && c.b == s.chatTintB
  {
    Color(Clamp01(s.chatTintR), Clamp01(s.chatTintG), Clamp01(s.chatTintB), 1.0)
  }

  /** The text ink: clamped channels and an opaque alpha. */
  function TextTintColor(s: Settings): (c: Color)
    ensures IsUnit(c) && c.a == 1.0
    ensures InUnit(s.textR) && InUnit(s.textG) && InUnit(s.textB) ==> c.r == s.textR && c.g == s.textG && c.b == s.textB
  {
    Color(Clamp01(s.textR), Clamp01(s.textG), Clamp01(s.textB), 1.0)
  }

  /** The field initialisers of a freshly created settings object. */
  function Default(): (s: Settings)
    ensures s.enabled && s.strength == 0.35
    ensures TintColor(s) == Color(0.92, 0.86, 0.75, 1.0)
    ensures !s.enableChatTint && !s.enableTextTint
    ensures !AnyHudHiding(s)
    ensures s.extraExcludeTokens == Some("")
  {
    Settings(
      true, 0.35, 0.92, 0.86, 0.75, 1.0, Some(""), false, 40.0,
      false, 0.35, 0.92, 0.86, 0.75,
      false, 0.35,
      false, 1.0, Color(0.85, 0.72, 0.35, 1.0),
      false, 1.0, Color(0.75, 0.70, 0.60, 1.0),
      0.95, 0.93, 0.88, true,
      false, false, false, false)
  }
}

=== FILE: controller.dfy ===
/**
 * UIThemeController: the enabled flag, the sceneLoaded subscription, the
 * coroutine runner, and DelayedApply's bounded retry loop.
 */
module Controller {
  import opened Options
  import opened Config
  import opened Scenes
  import opened Engine
  import Tint
  import Hud

  /**
   * The controller's flag, whether OnSceneLoaded is subscribed, whether the
   * runner object exists, and how many DelayedApply coroutines it was asked
   * to start.
   */
  datatype ThemeController = ThemeController(enabled: bool, hooked: bool, runnerAlive: bool, started: nat)

  function Initial(): ThemeController {
    ThemeController(false, false, false, 0)
  }

  /** Subscribed exactly while enabled; a runner whenever enabled; no coroutines without a runner. */
  predicate Inv(c: ThemeController) {
    (c.enabled <==> c.hooked) && (c.enabled ==> c.runnerAlive) && (!c.runnerAlive ==> c.started == 0)
  }

  /**
   * Enable: nothing when already enabled; otherwise set the flag, make sure
   * the runner exists, subscribe to sceneLoaded and start one DelayedApply.
   */
  function Enable(c: ThemeController): (r: ThemeController)
    ensures c.enabled ==> r == c
    ensures !c.enabled ==> r.enabled && r.hooked && r.runnerAlive && r.started == c.started + 1
    ensures Inv(c) ==> Inv(r)
  {
    if c.enabled then c
    else ThemeController(true, true, true, c.started + 1)
  }

  /** OnSceneLoaded: a fresh DelayedApply while enabled, nothing otherwise. */
  function OnSceneLoaded(c: ThemeController): (r: ThemeController)
    ensures !c.enabled ==> r == c
    ensures c.enabled ==> r == c.(started := c.started + 1)
    ensures Inv(c) ==> Inv(r)
  {
    if !c.enabled then c else c.(started := c.started + 1)
  }

  /**
   * Disable: nothing when not enabled; otherwise clear the flag, unsubscribe,
   * restore every tint and HUD change, forget all tracking and destroy the
   * runner, which stops its coroutines.
   */
  method Disable(c: ThemeController, e: Applier, scene: Scene) returns (c': ThemeController, e': Applier, scene': Scene)
    requires Inv(c) && Valid(e)
    ensures !c.enabled ==> c' == c && e' == e && scene' == scene
    ensures c.enabled ==>
      && c' == ThemeController(false, false, false, 0)
      && scene' == Hud.RestoredHud(e.hud, Tint.RestoredTint(e.tint, scene))
      && e'.tint == Tint.EmptyStore() && e'.hud == Hud.EmptyStore()
      && e'.excl == e.excl.(forPatch := map[], forText := map[])
      && !e'.suppress
    ensures Inv(c') && Valid(e')
  {
    if !c.enabled {
      c', e', scene' := c, e, scene;
      return;
    }
    var restored, afterRestore := RestoreAll(e, scene);
    e' := ClearAllTracking(restored);
    scene' := afterRestore;
    c' := ThemeController(false, false, false, 0);
  }

  /** Enabling twice is enabling once; the same for scene loads while disabled. */
  lemma EnableIdempotent(c: ThemeController)
    ensures Enable(Enable(c)) == Enable(c)
    ensures !c.enabled ==> OnSceneLoaded(c) == c
  {
  }

  // ---------------------------------------------------------------- DelayedApply

  /** How many bursts DelayedApply attempts. */
  const Attempts: nat := 8

  /** How a DelayedApply run ended. */
  datatype Outcome = Finished | StoppedDisabled(attempt: nat) | Faulted(attempt: nat)

  /**
   * DelayedApply: up to eight times, wait, stop if the controller is no
   * longer enabled, then run ApplyToAllCanvases and ApplyTextToAll; an
   * exception ends the loop after being logged.  `enabledAt(k)` is the flag
   * seen after the k-th wait and `throwsAt(k)` whether the k-th burst throws.
   * `bursts` counts the bursts that completed.
   */
  method DelayedApply(enabledAt: nat -> bool, throwsAt: nat -> bool) returns (bursts: nat, outcome: Outcome)
    ensures bursts <= Attempts
    ensures outcome.Finished? <==> forall k :: 0 <= k < Attempts ==> enabledAt(k) && !throwsAt(k)
    ensures outcome.Finished? ==> bursts == Attempts
    ensures outcome.StoppedDisabled? ==>
      && bursts == outcome.attempt < Attempts
      && !enabledAt(outcome.attempt)
      && forall k :: 0 <= k < outcome.attempt ==> enabledAt(k) && !throwsAt(k)
    ensures outcome.Faulted? ==>
      && bursts == outcome.attempt < Attempts
      && enabledAt(outcome.attempt) && throwsAt(outcome.attempt)
      && forall k :: 0 <= k < outcome.attempt ==> enabledAt(k) && !throwsAt(k)
  {
    bursts := 0;
    var attempt: nat := 0;
    while attempt < Attempts
      invariant attempt <= Attempts
      invariant bursts == attempt
      invariant forall k :: 0 <= k < attempt ==> enabledAt(k) && !throwsAt(k)
    {
      // after the quarter-second wait
      if !enabledAt(attempt) {
        return bursts, StoppedDisabled(attempt);
      }
      if throwsAt(attempt) {
        return bursts, Faulted(attempt);
      }
      bursts := bursts + 1;
      attempt := attempt + 1;
    }
    outcome := Finished;
  }
}

=== FILE: engine.dfy ===
/**
 * ThemeApplier's public entry points over its whole state: the tint and HUD
 * stores, the exclude cache, the SuppressPatches flag and the transform of
 * the text being tinted.  The Unity scene, the canvases FindObjectsOfType
 * returns and the settings are parameters.
 */
module Engine {
  import opened Options
  import opened Colors
  import opened Config
  import opened Strings
  import opened Classifier
  import opened Exclusion
  import opened Scenes
  import Tint
  import Hud

  datatype Applier = Applier(
    tint: Tint.TintStore,
    hud: Hud.HudStore,
    excl: ExcludeCache,
    suppress: bool,              // SuppressPatches
    currentText: Option<Node>)   // the transform TintTextIncoming looks at

  predicate Valid(e: Applier) {
    Tint.StoreValid(e.tint) && Hud.StoreValid(e.hud) && TokensCurrent(e.excl)
  }

  /** The static initial state: nothing tracked, an empty exclude cache, hooks active. */
  function Initial(): (e: Applier)
    ensures Valid(e) && !e.suppress && e.currentText.None?
  {
    InitialCacheIsCurrent();
    Applier(Tint.EmptyStore(), Hud.EmptyStore(), InitialCache(), false, None)
  }

  // ---------------------------------------------------------------- tracking

  /**
   * ClearAllTracking: forget every original, every HUD snapshot and both
   * memo tables.  The cached exclude string and its tokens are kept.
   */
  function ClearAllTracking(e: Applier): (r: Applier)
    ensures r.tint.images.tracked == [] && r.tint.raws.tracked == [] && r.hud.images.touched == [] && r.hud.raws.touched == []
    ensures r.tint.images.originals == map[] && r.tint.raws.originals == map[]
    ensures r.hud.images.states == map[] && r.hud.raws.states == map[]
    ensures r.excl == e.excl.(forPatch := map[], forText := map[])
    ensures r.suppress == e.suppress && r.currentText == e.currentText
    ensures Valid(e) ==> Valid(r)
  {
    e.(tint := Tint.EmptyStore(), hud := Hud.EmptyStore(), excl := e.excl.(forPatch := map[], forText := map[]))
  }

  /**
   * Once tracking is cleared a restore has nothing to write back: whatever
   * was not restored before the clear stays as it is.
   */
  lemma ClearedRestoreIsNoOp(e: Applier, scene: Scene)
    ensures Tint.RestoredTint(ClearAllTracking(e).tint, scene) == scene
    ensures Hud.RestoredHud(ClearAllTracking(e).hud, scene) == scene
  {
  }

  /**
   * RestoreAll: restore the tint originals, then the HUD snapshots, with the
   * hooks suppressed during the walk and active again afterwards.
   */
  method RestoreAll(e: Applier, scene: Scene) returns (e': Applier, scene': Scene)
    requires Valid(e)
    ensures scene' == Hud.RestoredHud(e.hud, Tint.RestoredTint(e.tint, scene))
    ensures e' == e.(tint := Tint.PrunedTint(e.tint, scene), hud := Hud.PrunedHud(e.hud, scene), suppress := false)
    ensures Valid(e')
  {
    var tint, afterTint := Tint.RestoreTintOnly(e.tint, scene);
    var hud, afterHud := Hud.RestoreHudOnly(e.hud, afterTint);
    Tint.RestoreShowsOriginals(e.tint, scene);
    LiveOnlySameKeys(e.hud.images.touched, scene, afterTint);
    LiveOnlySameKeys(e.hud.raws.touched, scene, afterTint);
    e' := e.(tint := tint, hud := hud, suppress := false);
    scene' := afterHud;
  }

  /**
   * With no HUD snapshot on a live graphic, RestoreAll gives every graphic
   * back the colour it had before the tint passes that built the store.
   */
  lemma RestoreAllUndoesTint(e: Applier, scene0: Scene, scene: Scene)
    requires Tint.Consistent(e.tint, scene0, scene)
    requires forall id :: id in scene ==> id !in e.hud.images.states && id !in e.hud.raws.states
    ensures Hud.RestoredHud(e.hud, Tint.RestoredTint(e.tint, scene)) == scene0
  {
    Tint.RestoreRecovers(e.tint, scene0, scene);
    var r := Hud.RestoredHud(e.hud, scene0);
    forall id | id in scene0
      ensures r[id] == scene0[id]
    {
    }
  }

  /**
   * With no tint original on a live graphic, RestoreAll gives every graphic
   * back the state it had before the HUD passes that built the store.
   */
  lemma RestoreAllUndoesHiding(e: Applier, scene0: Scene, scene: Scene)
    requires Hud.Consistent(e.hud, scene0, scene)
    requires forall id :: id in scene ==> id !in e.tint.images.originals && id !in e.tint.raws.originals
    ensures Hud.RestoredHud(e.hud, Tint.RestoredTint(e.tint, scene)) == scene0
  {
    var r := Tint.RestoredTint(e.tint, scene);
    forall id | id in scene
      ensures r[id] == scene[id]
    {
    }
    assert r == scene;
    Hud.RestoreRecovers(e.hud, scene0, scene);
  }

  /**
   * A graphic that is tinted and then hidden keeps its tint after RestoreAll:
   * the HUD snapshot taken after the tint holds the tinted colour, and it is
   * written back after the tint original.  (A white image tinted fully to
   * mid grey comes back grey.)
   */
  lemma TintThenHideSurvivesRestore(scene: Scene, id: int, tint: Color, strength: real)
    requires id in scene && !scene[id].selectableTarget
    ensures var (t1, scene1) := Tint.TintGraphic(Tint.EmptyStore().images, scene, id, tint, strength);
      var (h1, scene2) := Hud.HideHudGraphic(Hud.EmptyStore().images, scene1, id);
      var restored := Hud.RestoredHud(Hud.HudStore(h1, Hud.EmptyStore().raws),
                                      Tint.RestoredTint(Tint.TintStore(t1, Tint.EmptyStore().raws), scene2));
      id in restored && restored[id].color == BlendMultiply(scene[id].color, tint, strength)
  {
    var (t1, scene1) := Tint.TintGraphic(Tint.EmptyStore().images, scene, id, tint, strength);
    assert t1.originals == map[id := scene[id].color] && t1.tracked == [id];
    var (h1, scene2) := Hud.HideHudGraphic(Hud.EmptyStore().images, scene1, id);
    assert h1.states == map[id := Hud.Snap(scene1[id])] && h1.touched == [id];
  }

  // ---------------------------------------------------------------- background tint

  /**
   * ApplyToAllCanvases: refresh the exclude tokens, then, when the mod or
   * the chat tint is on, tint every live canvas; the hooks end up active
   * and only colours and the tint store change.
   */
  function ApplyToAllCanvases(e: Applier, scene: Scene, canvases: seq<Option<Canvas>>, s: Settings): (r: (Applier, Scene))
    ensures r.0 == e.(tint := r.0.tint, excl := EnsureExcludeCache(e.excl, s.extraExcludeTokens), suppress := false)
    ensures !(s.enabled || s.enableChatTint) ==> r.0.tint == e.tint && r.1 == scene
  {
    var excl := EnsureExcludeCache(e.excl, s.extraExcludeTokens);
    if s.enabled || s.enableChatTint then
      var (st', scene') := Tint.ApplyToCanvases(e.tint, scene, canvases, s, excl.tokens);
      (e.(tint := st', excl := excl, suppress := false), scene')
    else
      (e.(excl := excl, suppress := false), scene)
  }

  /** The background pass changes only colours, forgets no original and keeps the engine valid. */
  lemma ApplyToAllCanvasesShape(e: Applier, scene: Scene, canvases: seq<Option<Canvas>>, s: Settings)
    ensures var (e', scene') := ApplyToAllCanvases(e, scene, canvases, s);
      SameShape(scene, scene') && Tint.OriginalsKept(e.tint, e'.tint) && (Valid(e) ==> Valid(e'))
  {
    var excl := EnsureExcludeCache(e.excl, s.extraExcludeTokens);
    EnsureKeepsCurrent(e.excl, s.extraExcludeTokens);
    if s.enabled || s.enableChatTint {
      Tint.ApplyToCanvasesShape(e.tint, scene, canvases, s, excl.tokens);
    }
  }

  lemma EnsureKeepsCurrent(c: ExcludeCache, setting: Option<string>)
    ensures TokensCurrent(c) ==> TokensCurrent(EnsureExcludeCache(c, setting))
  {
    if TokensCurrent(c) {
      EnsureRefreshesTokens(c, setting);
    }
  }

  /** Running ApplyToAllCanvases again with nothing changed in between changes nothing. */
  lemma ApplyToAllCanvasesIdempotent(e: Applier, scene: Scene, canvases: seq<Option<Canvas>>, s: Settings)
    requires CanvasesTyped(canvases, scene)
    ensures var (e1, scene1) := ApplyToAllCanvases(e, scene, canvases, s);
      ApplyToAllCanvases(e1, scene1, canvases, s) == (e1, scene1)
  {
    var excl := EnsureExcludeCache(e.excl, s.extraExcludeTokens);
    if s.enabled || s.enableChatTint {
      Tint.ApplyToCanvasesIdempotent(e.tint, scene, canvases, s, excl.tokens);
    }
  }

  /** ReapplyAll: restore the tint originals, then tint every canvas afresh. */
  method ReapplyAll(e: Applier, scene: Scene, canvases: seq<Option<Canvas>>, s: Settings) returns (e': Applier, scene': Scene)
    requires Valid(e)
    ensures (e', scene') ==
      ApplyToAllCanvases(e.(tint := Tint.PrunedTint(e.tint, scene)), Tint.RestoredTint(e.tint, scene), canvases, s)
    ensures Valid(e') && !e'.suppress
  {
    var tint, restored := Tint.RestoreTintOnly(e.tint, scene);
    var r := ApplyToAllCanvases(e.(tint := tint, suppress := true), restored, canvases, s);
    ApplyToAllCanvasesShape(e.(tint := tint, suppress := true), restored, canvases, s);
    e' := r.0;
    scene' := r.1;
  }

  /**
   * After ReapplyAll a graphic that was tinted before but that the current
   * settings no longer tint shows its recorded original again.
   */
  lemma ReapplyDropsStaleTint(e: Applier, scene: Scene, canvases: seq<Option<Canvas>>, s: Settings, id: int)
    requires Valid(e) && id in scene
    requires id in e.tint.images.tracked && id !in e.tint.raws.tracked
    requires Tint.Decide(s, BuildExcludeTokens(s.extraExcludeTokens), scene[id]).NoTint?
    ensures var (e', scene') :=
      ApplyToAllCanvases(e.(tint := Tint.PrunedTint(e.tint, scene)), Tint.RestoredTint(e.tint, scene), canvases, s);
      id in scene' && scene'[id].color == e.tint.images.originals[id]
  {
    var restored := Tint.RestoredTint(e.tint, scene);
    Tint.RestoreShowsOriginals(e.tint, scene);
    EnsureRefreshesTokens(e.excl, s.extraExcludeTokens);
    var tokens := EnsureExcludeCache(e.excl, s.extraExcludeTokens).tokens;
    assert Tint.Decide(s, tokens, restored[id]) == Tint.Decide(s, tokens, scene[id]);
    var pruned := Tint.PrunedTint(e.tint, scene);
    Tint.ApplyToCanvasesIsOnePass(pruned, restored, canvases, s, tokens);
    Tint.TintPassSkipsUntinted(pruned, restored, AllWork(canvases), s, tokens, id);
  }

  // ---------------------------------------------------------------- text tint

  /** The ink TintTextIncoming picks, or KeepText when the colour is left alone. */
  datatype TextInk = KeepText | Ink(color: Color, strength: real)

  /**
   * The cascade of TintTextIncoming.  Inside a spell, ability, spellbook,
   * tooltip or inspect context only spell names are tinted, with the spell
   * ink when that tint is on; outside it journal and encyclopedia text gets
   * the lore ink when that is on; everything else, and text tinted with no
   * current transform, gets the text ink.
   */
  function TextInkFor(s: Settings, current: Option<Node>): (k: TextInk)
    ensures k.Ink? ==> InUnit(k.strength)
    ensures current.None? ==> k == Ink(TextTintColor(s), Clamp01(s.textStrength))
    ensures current.Some? && InSpellContext(current.value.names) ==>
      (k.Ink? <==> s.enableSpellNameTint && IsSpellNameText(current.value.names))
    ensures current.Some? && InSpellContext(current.value.names) && k.Ink? ==>
      k == Ink(s.spellNameTintColor, Clamp01(s.spellNameStrength))
    ensures current.Some? && !InSpellContext(current.value.names) ==> k.Ink?
    ensures current.Some? && !InSpellContext(current.value.names) && s.enableLoreTextTint
            && IsJournalOrEncyclopediaText(current.value.names) ==>
      k == Ink(s.loreTextTintColor, Clamp01(s.loreTextStrength))
    ensures current.Some? && !InSpellContext(current.value.names)
            && !(s.enableLoreTextTint && IsJournalOrEncyclopediaText(current.value.names)) ==>
      k == Ink(TextTintColor(s), Clamp01(s.textStrength))
  {
    if current.None? then Ink(TextTintColor(s), Clamp01(s.textStrength))
    else
      var names := current.value.names;
      if InSpellContext(names) then
        if s.enableSpellNameTint && IsSpellNameText(names) then Ink(s.spellNameTintColor, Clamp01(s.spellNameStrength))
        else KeepText
      else if s.enableLoreTextTint && IsJournalOrEncyclopediaText(names) then
        Ink(s.loreTextTintColor, Clamp01(s.loreTextStrength))
      else Ink(TextTintColor(s), Clamp01(s.textStrength))
  }

  /**
   * TintTextIncoming: move the incoming colour towards the chosen ink by the
   * chosen strength, keeping the incoming alpha; every colour channel ends
   * between the incoming one and the ink's.
   */
  function TintTextIncoming(s: Settings, current: Option<Node>, original: Color): (r: Color)
    ensures r.a == original.a
    ensures TextInkFor(s, current).KeepText? ==> r == original
    ensures TextInkFor(s, current).Ink? ==> RgbBetween(r, original, TextInkFor(s, current).color)
    ensures TextInkFor(s, current).Ink? && TextInkFor(s, current).strength == 0.0 ==> r == original
    ensures TextInkFor(s, current).Ink? && TextInkFor(s, current).strength == 1.0 ==>
      SameRgb(r, TextInkFor(s, current).color)
  {
    match TextInkFor(s, current)
    case KeepText => original
    case Ink(ink, strength) => Lerp(original, WithAlpha(ink, original.a), strength)
  }

  /**
   * The text pass tints the colour a text currently shows, not a stored
   * original, so a second pass moves it further: white text at half strength
   * towards mid grey becomes 0.75 after one pass and 0.625 after two.
   */
  lemma TextPassCompounds()
    ensures var s := Default().(enableTextTint := true, textR := 0.5, textG := 0.5, textB := 0.5, textStrength := 0.5);
      var white := Color(1.0, 1.0, 1.0, 1.0);
      var once := TintTextIncoming(s, None, white);
      var twice := TintTextIncoming(s, None, once);
      once == Color(0.75, 0.75, 0.75, 1.0) && twice == Color(0.625, 0.625, 0.625, 1.0)
  {
  }

  /** One iteration of ApplyTextToAll's loop. */
  function TextStep(e: Applier, scene: Scene, id: int, s: Settings): (Applier, Scene) {
    if id !in scene then (e, scene)
    else
      var g := scene[id];
      var (excluded, excl) := IsExcludedForText(e.excl, Some(g.node), s.extraExcludeTokens);
      if excluded then (e.(excl := excl), scene)
      else
        // the transform is current only for the duration of the call
        var c := TintTextIncoming(s, Some(g.node), g.color);
        (e.(excl := excl, currentText := None), scene[id := g.(color := c)])
  }

  function TextLoop(e: Applier, scene: Scene, texts: seq<int>, s: Settings): (Applier, Scene)
    decreases |texts|
  {
    if |texts| == 0 then (e, scene)
    else
      var (e1, scene1) := TextStep(e, scene, texts[0], s);
      TextLoop(e1, scene1, texts[1..], s)
  }

  lemma TextStepShape(e: Applier, scene: Scene, id: int, s: Settings)
    requires e.excl.key == KeyOf(s.extraExcludeTokens)
    ensures var (e', scene') := TextStep(e, scene, id, s);
      && SameShape(scene, scene')
      && (forall x :: x in scene && x != id ==> scene'[x] == scene[x])
      && e' == e.(excl := e'.excl, currentText := e'.currentText)
      && (e.currentText.None? ==> e'.currentText.None?)
      && e'.excl.key == e.excl.key && e'.excl.tokens == e.excl.tokens
  {
  }

  /** Only colours of listed texts change, and only the cache and current transform of the engine. */
  lemma {:induction false} TextLoopShape(e: Applier, scene: Scene, texts: seq<int>, s: Settings)
    requires e.excl.key == KeyOf(s.extraExcludeTokens)
    ensures var (e', scene') := TextLoop(e, scene, texts, s);
      && SameShape(scene, scene')
      && (forall id :: id in scene && id !in texts ==> scene'[id] == scene[id])
      && e' == e.(excl := e'.excl, currentText := e'.currentText)
      && (e.currentText.None? ==> e'.currentText.None?)
      && e'.excl.key == e.excl.key && e'.excl.tokens == e.excl.tokens
    decreases |texts|
  {
    if |texts| > 0 {
      var (e1, scene1) := TextStep(e, scene, texts[0], s);
      TextStepShape(e, scene, texts[0], s);
      TextLoopShape(e1, scene1, texts[1..], s);
    }
  }

  /**
   * ApplyTextToAll: nothing at all when text tint is off; otherwise refresh
   * the exclude tokens and tint every live, non-excluded text, with the
   * hooks suppressed during the pass and active afterwards.  Only text
   * colours change; the tint and HUD stores are untouched.
   */
  function ApplyTextToAll(e: Applier, scene: Scene, texts: seq<int>, s: Settings): (r: (Applier, Scene))
    ensures !s.enableTextTint ==> r == (e, scene)
    ensures s.enableTextTint ==>
      && !r.0.suppress
      && r.0.tint == e.tint && r.0.hud == e.hud
      && r.0.excl.key == KeyOf(s.extraExcludeTokens)
      && (e.currentText.None? ==> r.0.currentText.None?)
    ensures SameShape(scene, r.1)
    ensures forall id :: id in scene && id !in texts ==> r.1[id] == scene[id]
    ensures Valid(e) ==> Valid(r.0)
  {
    if !s.enableTextTint then (e, scene)
    else
      var e1 := e.(excl := EnsureExcludeCache(e.excl, s.extraExcludeTokens), suppress := true);
      var r := TextLoop(e1, scene, texts, s);
      TextLoopShape(e1, scene, texts, s);
      EnsureKeepsCurrent(e.excl, s.extraExcludeTokens);
      (r.0.(suppress := false), r.1)
  }

  /** Every graphic's transform is one of `world`'s. */
  predicate SceneKnown(world: Transforms, scene: Scene) {
    forall id :: id in scene ==> Known(world, scene[id].node)
  }

  lemma {:induction false} TextLoopSkipsExcluded(e: Applier, scene: Scene, texts: seq<int>, s: Settings, world: Transforms, id: int)
    requires MemoSound(e.excl, world) && SceneKnown(world, scene)
    requires e.excl.key == KeyOf(s.extraExcludeTokens)
    requires id in scene && TextVerdict(scene[id].node.names, e.excl.tokens)
    ensures id in TextLoop(e, scene, texts, s).1
    ensures TextLoop(e, scene, texts, s).1[id] == scene[id]
    decreases |texts|
  {
    TextLoopShape(e, scene, texts, s);
    if |texts| > 0 {
      var (e1, scene1) := TextStep(e, scene, texts[0], s);
      if texts[0] in scene {
        TextMemoTransparent(e.excl, scene[texts[0]].node, s.extraExcludeTokens, world);
      }
      assert scene1[id] == scene[id];
      assert SceneKnown(world, scene1);
      TextLoopSkipsExcluded(e1, scene1, texts[1..], s, world, id);
    }
  }

  /**
   * With a sound text memo, ApplyTextToAll never touches a text the text
   * hook excludes (a HUD-group member or a user-excluded node) under the
   * current exclude tokens.
   */
  lemma ExcludedTextsUntouched(e: Applier, scene: Scene, texts: seq<int>, s: Settings, world: Transforms, id: int)
    requires Valid(e) && MemoSound(e.excl, world) && SceneKnown(world, scene)
    requires id in scene && TextVerdict(scene[id].node.names, BuildExcludeTokens(s.extraExcludeTokens))
    ensures ApplyTextToAll(e, scene, texts, s).1[id] == scene[id]
  {
    if s.enableTextTint {
      EnsureRefreshesTokens(e.excl, s.extraExcludeTokens);
      EnsureKeepsMemoSound(e.excl, s.extraExcludeTokens, world);
      var e1 := e.(excl := EnsureExcludeCache(e.excl, s.extraExcludeTokens), suppress := true);
      TextLoopSkipsExcluded(e1, scene, texts, s, world, id);
    }
  }

  // ---------------------------------------------------------------- HUD

  /** The state ApplyHudVisibilityNow computes: undo the HUD changes, then apply the toggles afresh. */
  function HudNow(e: Applier, scene: Scene, canvases: seq<Option<Canvas>>, s: Settings): (Hud.HudStore, Scene) {
    Hud.ApplyHudVisibility(Hud.PrunedHud(e.hud, scene), Hud.RestoredHud(e.hud, scene), canvases, s)
  }

  /**
   * ApplyHudVisibilityNow: restore the HUD snapshots (tint is not undone),
   * then run the HUD visibility pass, hooks suppressed throughout.
   */
  method ApplyHudVisibilityNow(e: Applier, scene: Scene, canvases: seq<Option<Canvas>>, s: Settings) returns (e': Applier, scene': Scene)
    requires Valid(e)
    ensures (e'.hud, scene') == HudNow(e, scene, canvases, s)
    ensures e' == e.(hud := e'.hud, suppress := false)
  {
    var hud, restored := Hud.RestoreHudOnly(e.hud, scene);
    var r := Hud.ApplyHudVisibility(hud, restored, canvases, s);
    e' := e.(hud := r.0, suppress := false);
    scene' := r.1;
  }

  /**
   * However often ApplyHudVisibilityNow runs, with whatever settings, the
   * HUD store stays able to undo every change: a final restore gives back
   * the scene as it was before the first hide.
   */
  lemma HudNowKeepsRoundTrip(e: Applier, scene0: Scene, scene: Scene, canvases: seq<Option<Canvas>>, s: Settings)
    requires Hud.Consistent(e.hud, scene0, scene) && CanvasesTyped(canvases, scene0)
    ensures var (hud', scene') := HudNow(e, scene, canvases, s);
      Hud.Consistent(hud', scene0, scene') && Hud.RestoredHud(hud', scene') == scene0
  {
    Hud.RestoreStaysConsistent(e.hud, scene0, scene);
    Hud.HudRoundTrip(Hud.PrunedHud(e.hud, scene), scene0, Hud.RestoredHud(e.hud, scene), canvases, s);
  }
}

=== FILE: exclusion.dfy ===
/**
 * The user exclude list and the two per-transform memo tables of
 * ThemeApplier: parsing the comma-separated token string, rebuilding only
 * when that string changes, and memoising the "leave this alone" verdicts
 * of the two setter hooks by transform instance id.
 */
module Exclusion {
  import opened Options
  import opened Strings
  import opened Classifier

  // ---------------------------------------------------------------- parsing

  /** A usable exclude token: non-empty, trimmed and lower-case. */
  predicate IsToken(t: string) {
    |t| > 0 && Trimmed(t) && IsLowered(t)
  }

  /** The trimmed, lower-cased form of one comma-separated part. */
  function CleanPart(p: string): string {
    Lower(Trim(p))
  }

  /** A part survives cleaning when something other than white space is left. */
  predicate KeepsPart(p: string) {
    |Trim(p)| > 0
  }

  /** The cleaned forms of the parts that keep something, in order. */
  function CleanParts(parts: seq<string>): (toks: seq<string>)
    ensures forall t :: t in toks ==> IsToken(t)
    ensures forall t :: t in toks <==> exists p :: p in parts && KeepsPart(p) && CleanPart(p) == t
  {
    if |parts| == 0 then []
    else
      var rest := CleanParts(parts[1..]);
      assert forall p :: p in parts <==> p == parts[0] || p in parts[1..];
      if KeepsPart(parts[0]) then
        LowerKeepsTrimmed(Trim(parts[0]));
        [CleanPart(parts[0])] + rest
      else rest
  }

  /**
   * ThemeApplier.BuildExcludeTokens: split on commas, trim, drop empties,
   * lower-case, remove duplicates.  Null or empty input gives no tokens; every
   * token is non-empty, trimmed and lower-case; no token repeats; and a token
   * is present exactly when some comma-separated part cleans to it.
   */
  function BuildExcludeTokens(csv: Option<string>): (toks: seq<string>)
    ensures csv.None? || csv.value == "" ==> toks == []
    ensures NoDup(toks)
    ensures forall t :: t in toks ==> IsToken(t)
    ensures csv.Some? ==>
      forall t :: t in toks <==> exists p :: p in SplitComma(csv.value) && KeepsPart(p) && CleanPart(p) == t
  {
    if csv.None? || |csv.value| == 0 then []
    else Distinct(CleanParts(SplitComma(csv.value)))
  }

  /**
   * The same membership stated over the reference reading of the split: a
   * token is present exactly when some non-empty comma-separated field of
   * the string cleans to it.
   */
  lemma ExcludeTokensFromRuns(csv: string)
    ensures forall t :: t in BuildExcludeTokens(Some(csv)) <==>
      exists p :: p in Runs(csv) && KeepsPart(p) && CleanPart(p) == t
  {
    SplitCommaIsRuns(csv);
  }

  // ---------------------------------------------------------------- cache

  datatype ExcludeCache = ExcludeCache(
    key: string,                 // the raw string the tokens were built from
    tokens: seq<string>,
    forPatch: map<int, bool>,    // transform id -> verdict of the image hook
    forText: map<int, bool>)     // transform id -> verdict of the text hook

  /** The static initial state: empty key, no tokens, empty memo tables. */
  function InitialCache(): ExcludeCache {
    ExcludeCache("", [], map[], map[])
  }

  /** The cache key of a settings string: null reads as "". */
  function KeyOf(setting: Option<string>): string {
    setting.GetOr("")
  }

  /** The tokens agree with the key they are cached under. */
  predicate TokensCurrent(c: ExcludeCache) {
    c.tokens == BuildExcludeTokens(Some(c.key))
  }

  /**
   * ThemeApplier.EnsureExcludeCache: with an unchanged string nothing
   * changes; with a changed one the tokens are rebuilt and both memo tables
   * are emptied.
   */
  function EnsureExcludeCache(c: ExcludeCache, setting: Option<string>): (c': ExcludeCache)
    ensures c'.key == KeyOf(setting)
    ensures c.key == KeyOf(setting) ==> c' == c
    ensures c.key != KeyOf(setting) ==>
      c'.tokens == BuildExcludeTokens(setting) && c'.forPatch == map[] && c'.forText == map[]
  {
    var key := KeyOf(setting);
    if c.key == key then c
    else ExcludeCache(key, BuildExcludeTokens(setting), map[], map[])
  }

  /**
   * Starting from tokens that match their key, the cache afterwards holds
   * exactly the tokens of the current setting, and a second call is a no-op.
   */
  lemma EnsureRefreshesTokens(c: ExcludeCache, setting: Option<string>)
    requires TokensCurrent(c)
    ensures EnsureExcludeCache(c, setting).tokens == BuildExcludeTokens(setting)
    ensures TokensCurrent(EnsureExcludeCache(c, setting))
    ensures EnsureExcludeCache(EnsureExcludeCache(c, setting), setting) == EnsureExcludeCache(c, setting)
  {
    if setting.None? {
      assert BuildExcludeTokens(setting) == BuildExcludeTokens(Some(""));
    }
  }

  lemma InitialCacheIsCurrent()
    ensures TokensCurrent(InitialCache())
  {
  }

  // ---------------------------------------------------------------- verdicts

  /** The image hook leaves HUD-group members, chat panels and user-excluded nodes alone. */
  predicate PatchVerdict(names: seq<string>, tokens: seq<string>) {
    IsHudGroup12345(names) || IsChatPanel(names) || IsExcluded(names, tokens)
  }

  /** The text hook leaves HUD-group members and user-excluded nodes alone. */
  predicate TextVerdict(names: seq<string>, tokens: seq<string>) {
    IsHudGroup12345(names) || IsExcluded(names, tokens)
  }

  /**
   * ThemeApplier.IsExcludedForPatch: a missing transform is excluded; a memo
   * hit answers from the table without looking at the setting; a miss first
   * refreshes the tokens, then computes and records the verdict.
   */
  function IsExcludedForPatch(c: ExcludeCache, t: Option<Node>, setting: Option<string>): (r: (bool, ExcludeCache))
    ensures t.None? ==> r == (true, c)
    ensures t.Some? && t.value.id in c.forPatch ==> r == (c.forPatch[t.value.id], c)
    ensures t.Some? && t.value.id !in c.forPatch ==>
      && r.1 == EnsureExcludeCache(c, setting).(forPatch := r.1.forPatch)
      && r.0 == PatchVerdict(t.value.names, r.1.tokens)
      && r.1.forPatch == EnsureExcludeCache(c, setting).forPatch[t.value.id := r.0]
  {
    if t.None? then (true, c)
    else if t.value.id in c.forPatch then (c.forPatch[t.value.id], c)
    else
      var c1 := EnsureExcludeCache(c, setting);
      var v := PatchVerdict(t.value.names, c1.tokens);
      (v, c1.(forPatch := c1.forPatch[t.value.id := v]))
  }

  /** ThemeApplier.IsExcludedForText: the same memoisation over the text verdict. */
  function IsExcludedForText(c: ExcludeCache, t: Option<Node>, setting: Option<string>): (r: (bool, ExcludeCache))
    ensures t.None? ==> r == (true, c)
    ensures t.Some? && t.value.id in c.forText ==> r == (c.forText[t.value.id], c)
    ensures t.Some? && t.value.id !in c.forText ==>
      && r.1 == EnsureExcludeCache(c, setting).(forText := r.1.forText)
      && r.0 == TextVerdict(t.value.names, r.1.tokens)
      && r.1.forText == EnsureExcludeCache(c, setting).forText[t.value.id := r.0]
  {
    if t.None? then (true, c)
    else if t.value.id in c.forText then (c.forText[t.value.id], c)
    else
      var c1 := EnsureExcludeCache(c, setting);
      var v := TextVerdict(t.value.names, c1.tokens);
      (v, c1.(forText := c1.forText[t.value.id := v]))
  }

  // ---------------------------------------------------------------- memo soundness

  /** Transform id -> name chain, for the transforms the hooks may see. */
  type Transforms = map<int, seq<string>>

  /** The transform is one of `world`'s, with the chain recorded there. */
  predicate Known(world: Transforms, t: Node) {
    t.id in world && world[t.id] == t.names
  }

  /** Every memo entry is the verdict its transform gets under the cached tokens. */
  predicate MemoSound(c: ExcludeCache, world: Transforms) {
    && (forall id :: id in c.forPatch ==> id in world && c.forPatch[id] == PatchVerdict(world[id], c.tokens))
    && (forall id :: id in c.forText ==> id in world && c.forText[id] == TextVerdict(world[id], c.tokens))
  }

  lemma EnsureKeepsMemoSound(c: ExcludeCache, setting: Option<string>, world: Transforms)
    requires MemoSound(c, world)
    ensures MemoSound(EnsureExcludeCache(c, setting), world)
  {
  }

  /**
   * With a sound memo and transforms whose chains do not change, the memo is
   * transparent: the hook's answer is the verdict under the tokens the cache
   * holds afterwards, and the memo stays sound.
   */
  lemma PatchMemoTransparent(c: ExcludeCache, t: Node, setting: Option<string>, world: Transforms)
    requires MemoSound(c, world) && Known(world, t)
    ensures var r := IsExcludedForPatch(c, Some(t), setting);
      r.0 == PatchVerdict(t.names, r.1.tokens) && MemoSound(r.1, world)
  {
    EnsureKeepsMemoSound(c, setting, world);
  }

  lemma TextMemoTransparent(c: ExcludeCache, t: Node, setting: Option<string>, world: Transforms)
    requires MemoSound(c, world) && Known(world, t)
    ensures var r := IsExcludedForText(c, Some(t), setting);
      r.0 == TextVerdict(t.names, r.1.tokens) && MemoSound(r.1, world)
  {
    EnsureKeepsMemoSound(c, setting, world);
  }
}

=== FILE: hud.dfy ===
/**
 * HUD hiding in ThemeApplier: a hidden graphic keeps its enabled flag and
 * its RGB, loses its raycast target and gets alpha 0, after a one-time
 * snapshot of (enabled, raycastTarget, colour) that RestoreHudOnly writes
 * back.
 */
module Hud {
  import opened Options
  import opened Colors
  import opened Config
  import opened Strings
  import opened Classifier
  import opened Scenes

  // ---------------------------------------------------------------- store

  /** The three fields hiding may change, as they were before the first hide. */
  datatype HudState = HudState(enabled: bool, raycastTarget: bool, color: Color)

  /** Snapshots by graphic id, plus the list of graphics hidden at least once. */
  datatype HudTable = HudTable(states: map<int, HudState>, touched: seq<int>)

  datatype HudStore = HudStore(images: HudTable, raws: HudTable)

  predicate TableValid(t: HudTable) {
    NoDup(t.touched) && forall id :: id in t.touched ==> id in t.states
  }

  predicate StoreValid(st: HudStore) {
    TableValid(st.images) && TableValid(st.raws)
  }

  function EmptyStore(): (st: HudStore)
    ensures StoreValid(st)
  {
    HudStore(HudTable(map[], []), HudTable(map[], []))
  }

  function TableOf(st: HudStore, slot: Slot): HudTable {
    if slot == ImageSlot then st.images else st.raws
  }

  function WithTable(st: HudStore, slot: Slot, t: HudTable): HudStore {
    if slot == ImageSlot then st.(images := t) else st.(raws := t)
  }

  function Snap(g: Graphic): HudState {
    HudState(g.enabled, g.raycastTarget, g.color)
  }

  function PutState(g: Graphic, h: HudState): Graphic {
    g.(enabled := h.enabled, raycastTarget := h.raycastTarget, color := h.color)
  }

  // ---------------------------------------------------------------- one graphic

  /**
   * HideHudGraphic: a graphic that a Selectable uses as its target graphic
   * is never hidden.  Otherwise the first hide records a snapshot (later
   * hides keep it), and the graphic stops catching raycasts and becomes fully
   * transparent, its RGB and enabled flag untouched; no other graphic changes.
   */
  function HideHudGraphic(t: HudTable, scene: Scene, id: int): (r: (HudTable, Scene))
    requires id in scene
    ensures scene[id].selectableTarget ==> r == (t, scene)
    ensures !scene[id].selectableTarget ==>
      && id in r.0.states
      && (id in t.states ==> r.0 == t)
      && (id !in t.states ==> r.0.states == t.states[id := Snap(scene[id])] && r.0.touched == t.touched + [id])
      && r.1.Keys == scene.Keys
      && (forall other :: other in scene && other != id ==> r.1[other] == scene[other])
      && !r.1[id].raycastTarget && r.1[id].color.a == 0.0
      && SameRgb(r.1[id].color, scene[id].color) && r.1[id].enabled == scene[id].enabled
      && PutState(r.1[id], Snap(scene[id])) == scene[id]
    ensures TableValid(t) ==> TableValid(r.0)
  {
    var g := scene[id];
    if g.selectableTarget then (t, scene)
    else
      var t' := if id in t.states then t else HudTable(t.states[id := Snap(g)], t.touched + [id]);
      assert TableValid(t) && id !in t.states ==> NoDup(t'.touched) by {
        if TableValid(t) && id !in t.states {
          forall i, j | 0 <= i < j < |t'.touched|
            ensures t'.touched[i] != t'.touched[j]
          {
            if j == |t.touched| {
              assert t'.touched[i] == t.touched[i];
            } else {
              assert t'.touched[i] == t.touched[i] && t'.touched[j] == t.touched[j];
            }
          }
        }
      }
      (t', scene[id := g.(raycastTarget := false, color := WithAlpha(g.color, 0.0))])
  }

  /** RestoreHudGraphic: write the snapshot back, or do nothing when there is none. */
  function RestoreHudGraphic(t: HudTable, scene: Scene, id: int): (r: Scene)
    requires id in scene
    ensures id !in t.states ==> r == scene
    ensures id in t.states ==>
      && r.Keys == scene.Keys
      && (forall other :: other in scene && other != id ==> r[other] == scene[other])
      && Snap(r[id]) == t.states[id]
      && r[id].node == scene[id].node && r[id].kind == scene[id].kind && r[id].rect == scene[id].rect
  {
    if id in t.states then scene[id := PutState(scene[id], t.states[id])] else scene
  }

  /** Hiding a graphic for the first time and restoring it gives it back unchanged. */
  lemma HideThenRestore(t: HudTable, scene: Scene, id: int)
    requires id in scene && id !in t.states
    ensures var (t', scene') := HideHudGraphic(t, scene, id); RestoreHudGraphic(t', scene', id) == scene
  {
    var (t', scene') := HideHudGraphic(t, scene, id);
    if !scene[id].selectableTarget {
      assert scene'[id := PutState(scene'[id], t'.states[id])] == scene;
    }
  }

  /** Hiding twice is hiding once; restoring twice is restoring once. */
  lemma HideAndRestoreIdempotent(t: HudTable, scene: Scene, id: int)
    requires id in scene
    ensures var (t1, scene1) := HideHudGraphic(t, scene, id); HideHudGraphic(t1, scene1, id) == (t1, scene1)
    ensures RestoreHudGraphic(t, RestoreHudGraphic(t, scene, id), id) == RestoreHudGraphic(t, scene, id)
  {
    var (t1, scene1) := HideHudGraphic(t, scene, id);
    if !scene[id].selectableTarget {
      var g := scene1[id];
      assert scene1[id := g.(raycastTarget := false, color := WithAlpha(g.color, 0.0))] == scene1;
    }
    if id in t.states {
      var r := RestoreHudGraphic(t, scene, id);
      assert r[id := PutState(r[id], t.states[id])] == r;
    }
  }

  // ---------------------------------------------------------------- decision

  datatype HudAction = Hide | Restore | Leave

  /** One of the enabled toggles asks for a graphic of these groups to be hidden. */
  predicate HideWanted(s: Settings, names: seq<string>) {
    || (s.hideLeftAndActionBar && (IsLeftCastBars(names) || IsActionBarStrip(names)))
    || (s.hideCenterAndRightButtons && (IsCenterHudPlate(names) || IsRightHudButtons(names)))
    || (s.hideDialoguePanel && IsDialoguePanel(names))
  }

  /**
   * The per-graphic cascade of ApplyHudVisibilityUnderRoot.  Under a
   * journal-parchment canvas a journal-like graphic is hidden exactly when it
   * is a parchment background and that toggle is on, and restored otherwise.
   * Elsewhere nothing happens unless HUD groups are allowed; then a graphic is
   * hidden exactly when it is not portrait-like, a toggle asks for one of its
   * groups, and, being a Left or Action graphic, it passes the art filter;
   * every other graphic is restored.
   */
  function HudDecision(s: Settings, names: seq<string>, rect: Option<Size>, allowHud: bool, allowJournal: bool): (a: HudAction)
    ensures allowJournal && IsJournalLikeScreen(names) ==>
      a != Leave && (a == Hide <==> s.hideJournalBackground && IsJournalParchmentBackgroundCandidate(names, rect))
    ensures !(allowJournal && IsJournalLikeScreen(names)) ==>
      && (a == Leave <==> !allowHud)
      && (a == Hide <==>
            && allowHud
            && !IsPortraitLike(names)
            && HideWanted(s, names)
            && (IsLeftCastBars(names) || IsActionBarStrip(names) ==> IsHudArtCandidate(names, rect)))
  {
    if allowJournal && IsJournalLikeScreen(names) then
      if s.hideJournalBackground && IsJournalParchmentBackgroundCandidate(names, rect) then Hide else Restore
    else if !allowHud then Leave
    else if IsPortraitLike(names) then Restore
    else
      var isLeft := IsLeftCastBars(names);
      var isAction := IsActionBarStrip(names);
      var isCenter := IsCenterHudPlate(names);
      var isRight := IsRightHudButtons(names);
      var isDialog := IsDialoguePanel(names);
      if !isLeft && !isAction && !isCenter && !isRight && !isDialog then Restore
      else
        var wanted :=
          (s.hideLeftAndActionBar && (isLeft || isAction)) ||
          (s.hideCenterAndRightButtons && (isCenter || isRight)) ||
          (s.hideDialoguePanel && isDialog);
        if !wanted then Restore
        else if (isLeft || isAction) && !IsHudArtCandidate(names, rect) then Restore
        else Hide
  }

  /** With every hiding toggle off, no graphic is ever hidden. */
  lemma NoTogglesNoHiding(s: Settings, names: seq<string>, rect: Option<Size>, allowHud: bool, allowJournal: bool)
    requires !AnyHudHiding(s)
    ensures HudDecision(s, names, rect, allowHud, allowJournal) != Hide
  {
  }

  /**
   * ApplyHudVisibilityInternal's choice per canvas: front-end canvases are
   * never touched, gameplay HUD canvases allow the HUD groups only, and other
   * journal-like canvases allow the parchment only, when that toggle is on.
   * The result is (allowHudGroups, allowJournalParchment).
   */
  function CanvasHudMode(s: Settings, names: seq<string>): (m: Option<(bool, bool)>)
    ensures IsFrontEndScreen(names) ==> m.None?
    ensures m.Some? ==> m.value.0 != m.value.1
    ensures m == Some((true, false)) <==> !IsFrontEndScreen(names) && IsGameplayHudCanvas(names)
    ensures m == Some((false, true)) <==>
      !IsFrontEndScreen(names) && !IsGameplayHudCanvas(names) && s.hideJournalBackground && IsJournalLikeScreen(names)
  {
    if IsFrontEndScreen(names) then None
    else if IsGameplayHudCanvas(names) then Some((true, false))
    else if s.hideJournalBackground && IsJournalLikeScreen(names) then Some((false, true))
    else None
  }

  // ---------------------------------------------------------------- passes

  function HudStep(st: HudStore, scene: Scene, item: Item, s: Settings, allowHud: bool, allowJournal: bool): (HudStore, Scene) {
    if item.id !in scene then (st, scene)
    else
      var g := scene[item.id];
      match HudDecision(s, g.node.names, g.rect, allowHud, allowJournal)
      case Leave => (st, scene)
      case Restore => (st, RestoreHudGraphic(TableOf(st, item.slot), scene, item.id))
      case Hide =>
        var (t', scene') := HideHudGraphic(TableOf(st, item.slot), scene, item.id);
        (WithTable(st, item.slot, t'), scene')
  }

  /** ApplyHudVisibilityUnderRoot over one canvas's work list. */
  function HudPass(st: HudStore, scene: Scene, work: seq<Item>, s: Settings, allowHud: bool, allowJournal: bool): (HudStore, Scene)
    decreases |work|
  {
    if |work| == 0 then (st, scene)
    else
      var (st1, scene1) := HudStep(st, scene, work[0], s, allowHud, allowJournal);
      HudPass(st1, scene1, work[1..], s, allowHud, allowJournal)
  }

  /** One iteration of ApplyHudVisibilityInternal's canvas loop. */
  function ApplyHudToCanvas(st: HudStore, scene: Scene, canvas: Option<Canvas>, s: Settings): (HudStore, Scene) {
    if canvas.None? then (st, scene)
    else
      var mode := CanvasHudMode(s, canvas.value.node.names);
      if mode.None? then (st, scene)
      else HudPass(st, scene, RootWork(canvas.value), s, mode.value.0, mode.value.1)
  }

  /** ApplyHudVisibilityInternal: each live canvas in the mode CanvasHudMode picks. */
  function ApplyHudVisibility(st: HudStore, scene: Scene, canvases: seq<Option<Canvas>>, s: Settings): (HudStore, Scene)
    decreases |canvases|
  {
    if |canvases| == 0 then (st, scene)
    else
      var (st1, scene1) := ApplyHudToCanvas(st, scene, canvases[0], s);
      ApplyHudVisibility(st1, scene1, canvases[1..], s)
  }

  /** With every hiding toggle off a pass records nothing: it can only restore. */
  lemma {:induction false} NoTogglesKeepStore(st: HudStore, scene: Scene, work: seq<Item>, s: Settings, allowHud: bool, allowJournal: bool)
    requires !AnyHudHiding(s)
    ensures HudPass(st, scene, work, s, allowHud, allowJournal).0 == st
    decreases |work|
  {
    if |work| > 0 {
      var item := work[0];
      if item.id in scene {
        var g := scene[item.id];
        NoTogglesNoHiding(s, g.node.names, g.rect, allowHud, allowJournal);
      }
      var (st1, scene1) := HudStep(st, scene, item, s, allowHud, allowJournal);
      NoTogglesKeepStore(st1, scene1, work[1..], s, allowHud, allowJournal);
    }
  }

  // ---------------------------------------------------------------- restore

  /** The scene RestoreHudOnly leaves: image snapshots first, then raw-image snapshots. */
  function RestoredHud(st: HudStore, scene: Scene): Scene {
    Restored(st.raws.states, st.raws.touched, Restored(st.images.states, st.images.touched, scene, PutState), PutState)
  }

  function PrunedHud(st: HudStore, scene: Scene): HudStore {
    HudStore(HudTable(st.images.states, LiveOnly(st.images.touched, scene)),
             HudTable(st.raws.states, LiveOnly(st.raws.touched, scene)))
  }

  /**
   * ThemeApplier.RestoreHudOnly: every live touched graphic gets its
   * snapshot back and destroyed entries leave the touched lists.
   */
  method RestoreHudOnly(st: HudStore, scene: Scene) returns (st': HudStore, scene': Scene)
    requires StoreValid(st)
    ensures st' == PrunedHud(st, scene) && StoreValid(st')
    ensures scene' == RestoredHud(st, scene)
  {
    var keptImages, afterImages := RestoreTracked(st.images.states, st.images.touched, scene, PutState);
    var keptRaws, afterRaws := RestoreTracked(st.raws.states, st.raws.touched, afterImages, PutState);
    LiveOnlySameKeys(st.raws.touched, scene, afterImages);
    st' := HudStore(HudTable(st.images.states, keptImages), HudTable(st.raws.states, keptRaws));
    scene' := afterRaws;
  }

  // ---------------------------------------------------------------- round trip

  function OtherSlot(slot: Slot): Slot {
    if slot == ImageSlot then RawSlot else ImageSlot
  }

  /**
   * What the store promises about one graphic relative to the scene before
   * any hiding (`scene0`): only the three snapshot fields differ, a graphic
   * with no snapshot is exactly as it was, a snapshot is the pre-hiding state
   * and is on the touched list, and the other table knows nothing of it.
   */
  predicate ConsistentAt(st: HudStore, scene0: Scene, scene: Scene, id: int)
    requires id in scene0 && id in scene
  {
    var g0 := scene0[id];
    var own := TableOf(st, SlotOfKind(g0.kind));
    && id !in TableOf(st, OtherSlot(SlotOfKind(g0.kind))).states
    && PutState(scene[id], Snap(g0)) == g0
    && (id in own.states ==> own.states[id] == Snap(g0) && id in own.touched)
    && (id !in own.states ==> scene[id] == g0)
  }

  predicate Consistent(st: HudStore, scene0: Scene, scene: Scene) {
    && scene.Keys == scene0.Keys
    && forall id :: id in scene0 ==> ConsistentAt(st, scene0, scene, id)
  }

  lemma EmptyStoreConsistent(scene: Scene)
    ensures Consistent(EmptyStore(), scene, scene)
  {
  }

  /** Restoring a consistent store gives back the scene as it was before any hiding. */
  lemma RestoreRecovers(st: HudStore, scene0: Scene, scene: Scene)
    requires Consistent(st, scene0, scene)
    ensures RestoredHud(st, scene) == scene0
  {
    var r := RestoredHud(st, scene);
    forall id | id in scene0
      ensures r[id] == scene0[id]
    {
      assert ConsistentAt(st, scene0, scene, id);
    }
  }

  /** After a restore the pruned store is still consistent, with the scene back at its start. */
  lemma RestoreStaysConsistent(st: HudStore, scene0: Scene, scene: Scene)
    requires Consistent(st, scene0, scene)
    ensures Consistent(PrunedHud(st, scene), scene0, RestoredHud(st, scene))
  {
    RestoreRecovers(st, scene0, scene);
    var st' := PrunedHud(st, scene);
    forall id | id in scene0
      ensures ConsistentAt(st', scene0, scene0, id)
    {
      assert ConsistentAt(st, scene0, scene, id);
    }
  }

  /** Hiding a graphic of the right slot keeps the store consistent with the scene before any hiding. */
  lemma HideKeepsConsistent(st: HudStore, scene0: Scene, scene: Scene, slot: Slot, id: int)
    requires Consistent(st, scene0, scene) && id in scene0 && slot == SlotOfKind(scene0[id].kind)
    ensures var (t', scene') := HideHudGraphic(TableOf(st, slot), scene, id); Consistent(WithTable(st, slot, t'), scene0, scene')
  {
    var (t', scene') := HideHudGraphic(TableOf(st, slot), scene, id);
    var st' := WithTable(st, slot, t');
    assert ConsistentAt(st, scene0, scene, id);
    forall x | x in scene0
      ensures ConsistentAt(st', scene0, scene', x)
    {
      assert ConsistentAt(st, scene0, scene, x);
    }
  }

  /** Restoring one graphic from its own table keeps the store consistent. */
  lemma RestoreGraphicKeepsConsistent(st: HudStore, scene0: Scene, scene: Scene, slot: Slot, id: int)
    requires Consistent(st, scene0, scene) && id in scene0 && slot == SlotOfKind(scene0[id].kind)
    ensures Consistent(st, scene0, RestoreHudGraphic(TableOf(st, slot), scene, id))
  {
    var scene' := RestoreHudGraphic(TableOf(st, slot), scene, id);
    assert ConsistentAt(st, scene0, scene, id);
    forall x | x in scene0
      ensures ConsistentAt(st, scene0, scene', x)
    {
      assert ConsistentAt(st, scene0, scene, x);
    }
  }

  lemma HudStepConsistent(st: HudStore, scene0: Scene, scene: Scene, item: Item, s: Settings, allowHud: bool, allowJournal: bool)
    requires Consistent(st, scene0, scene)
    requires item.id in scene0 ==> item.slot == SlotOfKind(scene0[item.id].kind)
    ensures var (st', scene') := HudStep(st, scene, item, s, allowHud, allowJournal); Consistent(st', scene0, scene')
  {
    if item.id in scene {
      var g := scene[item.id];
      match HudDecision(s, g.node.names, g.rect, allowHud, allowJournal)
      case Leave =>
      case Restore => RestoreGraphicKeepsConsistent(st, scene0, scene, item.slot, item.id);
      case Hide => HideKeepsConsistent(st, scene0, scene, item.slot, item.id);
    }
  }

  lemma {:induction false} HudPassConsistent(st: HudStore, scene0: Scene, scene: Scene, work: seq<Item>, s: Settings, allowHud: bool, allowJournal: bool)
    requires Consistent(st, scene0, scene) && WellTyped(work, scene0)
    ensures var (st', scene') := HudPass(st, scene, work, s, allowHud, allowJournal); Consistent(st', scene0, scene')
    decreases |work|
  {
    if |work| > 0 {
      HudStepConsistent(st, scene0, scene, work[0], s, allowHud, allowJournal);
      var (st1, scene1) := HudStep(st, scene, work[0], s, allowHud, allowJournal);
      assert WellTyped(work[1..], scene0) by {
        forall i | 0 <= i < |work[1..]| && work[1..][i].id in scene0
          ensures work[1..][i].slot == SlotOfKind(scene0[work[1..][i].id].kind)
        {
          assert work[1..][i] == work[i + 1];
        }
      }
      HudPassConsistent(st1, scene0, scene1, work[1..], s, allowHud, allowJournal);
    }
  }

  /**
   * Hide/restore round trip: from a consistent store (the empty store, say),
   * any number of HUD visibility passes followed by RestoreHudOnly gives
   * every graphic back its pre-hiding enabled flag, raycast target and colour.
   */
  lemma {:induction false} HudRoundTrip(st: HudStore, scene0: Scene, scene: Scene, canvases: seq<Option<Canvas>>, s: Settings)
    requires Consistent(st, scene0, scene) && CanvasesTyped(canvases, scene0)
    ensures var (st', scene') := ApplyHudVisibility(st, scene, canvases, s);
      Consistent(st', scene0, scene') && RestoredHud(st', scene') == scene0
    decreases |canvases|
  {
    if |canvases| == 0 {
      RestoreRecovers(st, scene0, scene);
    } else {
      var (st1, scene1) := ApplyHudToCanvas(st, scene, canvases[0], s);
      if canvases[0].Some? {
        assert 0 < |canvases|;
        RootWorkWellTyped(canvases[0].value, scene0);
        var mode := CanvasHudMode(s, canvases[0].value.node.names);
        if mode.Some? {
          HudPassConsistent(st, scene0, scene, RootWork(canvases[0].value), s, mode.value.0, mode.value.1);
        }
      }
      assert CanvasesTyped(canvases[1..], scene0) by {
        forall k | 0 <= k < |canvases[1..]| && canvases[1..][k].Some?
          ensures forall id :: id in canvases[1..][k].value.images && id in scene0 ==> scene0[id].kind == Image
          ensures forall id :: id in canvases[1..][k].value.raws && id in scene0 ==> scene0[id].kind == RawImage
        {
          assert canvases[1..][k] == canvases[k + 1];
        }
      }
      HudRoundTrip(st1, scene0, scene1, canvases[1..], s);
    }
  }
}

=== FILE: options.dfy ===
/** The usual optional-value wrapper, standing in for C#'s nullable references. */
module Options {

  datatype Option<+T> = None | Some(value: T) {

    /** The wrapped value, or `default` when there is none (C#'s `??`). */
    function GetOr(default: T): T {
      match this
      case Some(v) => v
      case None => default
    }
  }
}

=== FILE: patches.dfy ===
/**
 * The two Harmony prefixes: Graphic.set_color, which re-tints colours the
 * game assigns to Image and RawImage components, and TMP_Text.set_color,
 * which inks colours assigned to TextMeshPro texts.  Each returns the value
 * the setter goes on to store, together with the applier's new state.
 */
module Patches {
  import opened Options
  import opened Colors
  import opened Config
  import opened Classifier
  import opened Exclusion
  import opened Scenes
  import opened Engine
  import Tint

  // ---------------------------------------------------------------- Graphic.set_color

  /** The checks before the exclude lookup that let a Graphic colour through untouched. */
  predicate GraphicPassThrough(e: Applier, scene: Scene, id: int, s: Settings) {
    id !in scene || e.suppress || !IsImageLike(scene[id].kind) || !s.enabled || s.strength <= 0.0001
  }

  /** The checks after the exclude lookup that let a Graphic colour through: an excluded transform, or a small image while those are skipped. */
  predicate GraphicSkipped(e: Applier, scene: Scene, id: int, s: Settings)
    requires id in scene
  {
    IsExcludedForPatch(e.excl, Some(scene[id].node), s.extraExcludeTokens).0
    || (s.skipSmallImages && IsSmall(scene[id].rect, s.smallImageMaxSize))
  }

  /**
   * Graphic.set_color prefix.  The value passes unchanged for a destroyed
   * graphic, while hooks are suppressed, for anything but an Image or
   * RawImage, with the mod off or a strength of at most 0.0001, for an
   * excluded transform and for a small image while those are skipped;
   * otherwise it becomes TintIncomingStable's colour.  The alpha the game
   * asked for always survives.
   */
  function GraphicSetColorPrefix(e: Applier, scene: Scene, id: int, value: Color, s: Settings): (r: (Color, Applier))
    ensures r.0.a == value.a
    ensures GraphicPassThrough(e, scene, id, s) ==> r == (value, e)
    ensures r.1 == e.(tint := r.1.tint, excl := r.1.excl)
    ensures !GraphicPassThrough(e, scene, id, s) ==>
      r.1.excl == IsExcludedForPatch(e.excl, Some(scene[id].node), s.extraExcludeTokens).1
    ensures !GraphicPassThrough(e, scene, id, s) && GraphicSkipped(e, scene, id, s) ==>
      r.0 == value && r.1.tint == e.tint
    ensures !GraphicPassThrough(e, scene, id, s) && !GraphicSkipped(e, scene, id, s) ==>
      var t := Tint.TableOf(r.1.tint, SlotOfKind(scene[id].kind));
      && id in t.originals
      && SameRgb(r.0, BlendMultiply(t.originals[id], TintColor(s), Clamp01(s.strength)))
    ensures Valid(e) ==> Valid(r.1)
  {
    if GraphicPassThrough(e, scene, id, s) then (value, e)
    else
      var g := scene[id];
      var (excluded, excl) := IsExcludedForPatch(e.excl, Some(g.node), s.extraExcludeTokens);
      EnsureKeepsCurrent(e.excl, s.extraExcludeTokens);
      var e1 := e.(excl := excl);
      if excluded then (value, e1)
      else if s.skipSmallImages && IsSmall(g.rect, s.smallImageMaxSize) then (value, e1)
      else
        var (c, tint) := Tint.TintIncomingStable(e.tint, s, g.kind, id, value);
        (c, e1.(tint := tint))
  }

  /**
   * With a sound patch memo built for the current exclude string, the image
   * hook never alters a colour assigned to a HUD-group member, a chat panel
   * or a user-excluded transform, and records nothing for it.
   */
  lemma ExcludedGraphicsUntouched(e: Applier, scene: Scene, id: int, value: Color, s: Settings, world: Transforms)
    requires Valid(e) && MemoSound(e.excl, world) && SceneKnown(world, scene)
    requires e.excl.key == KeyOf(s.extraExcludeTokens)
    requires id in scene && PatchVerdict(scene[id].node.names, BuildExcludeTokens(s.extraExcludeTokens))
    ensures var r := GraphicSetColorPrefix(e, scene, id, value, s); r.0 == value && r.1.tint == e.tint
  {
    if !GraphicPassThrough(e, scene, id, s) {
      var node := scene[id].node;
      assert Known(world, node);
      PatchMemoTransparent(e.excl, node, s.extraExcludeTokens, world);
      EnsureRefreshesTokens(e.excl, s.extraExcludeTokens);
      var verdict := IsExcludedForPatch(e.excl, Some(node), s.extraExcludeTokens);
      assert verdict.1.tokens == BuildExcludeTokens(s.extraExcludeTokens);
      assert verdict.0;
    }
  }

  /**
   * No stacking through the hook: when the game assigns two colours in a
   * row to the same graphic, either both pass unchanged or both come out
   * with the same RGB, the blend of the one recorded original.
   */
  lemma HookWritesAreStable(e: Applier, scene: Scene, id: int, v1: Color, v2: Color, s: Settings)
    requires !GraphicPassThrough(e, scene, id, s)
    ensures var (c1, e1) := GraphicSetColorPrefix(e, scene, id, v1, s);
      var (c2, e2) := GraphicSetColorPrefix(e1, scene, id, v2, s);
      (c1 == v1 && c2 == v2) || SameRgb(c1, c2)
  {
    var g := scene[id];
    var (excluded, excl) := IsExcludedForPatch(e.excl, Some(g.node), s.extraExcludeTokens);
    assert g.node.id in excl.forPatch && excl.forPatch[g.node.id] == excluded;
    var (c1, e1) := GraphicSetColorPrefix(e, scene, id, v1, s);
    assert IsExcludedForPatch(e1.excl, Some(g.node), s.extraExcludeTokens) == (excluded, e1.excl);
    if !excluded && !(s.skipSmallImages && IsSmall(g.rect, s.smallImageMaxSize)) {
      var (c, tint) := Tint.TintIncomingStable(e.tint, s, g.kind, id, v1);
      assert Tint.TintIncomingStable(tint, s, g.kind, id, v2).1 == tint;
    }
  }

  // ---------------------------------------------------------------- TMP_Text.set_color

  function Max3(x: real, y: real, z: real): real {
    if x >= y && x >= z then x else if y >= z then y else z
  }

  function Min3(x: real, y: real, z: real): real {
    if x <= y && x <= z then x else if y <= z then y else z
  }

  /** How far apart the brightest and darkest colour channels are. */
  function Spread(c: Color): (d: real)
    ensures d >= 0.0
    ensures d == 0.0 <==> c.r == c.g == c.b
  {
    Max3(c.r, c.g, c.b) - Min3(c.r, c.g, c.b)
  }

  /** The checks before the exclude lookup that let a text colour through untouched. */
  predicate TextPassThrough(e: Applier, scene: Scene, id: int, s: Settings) {
    id !in scene || e.suppress || !s.enableTextTint
  }

  /** The checks after the exclude lookup that let a text colour through: an excluded transform, or a coloured segment while those are skipped. */
  predicate TextSkipped(e: Applier, scene: Scene, id: int, value: Color, s: Settings)
    requires id in scene
  {
    IsExcludedForText(e.excl, Some(scene[id].node), s.extraExcludeTokens).0
    || (s.skipRichTextColoredSegments && Spread(value) > 0.35)
  }

  /**
   * TMP_Text.set_color prefix.  The value passes unchanged for a destroyed
   * text, while hooks are suppressed, with text tint off, for an excluded
   * transform and, while coloured segments are skipped, for a colour whose
   * channels spread by more than 0.35; otherwise it is inked by
   * TintTextIncoming with this text's transform current.  The incoming alpha
   * always survives and no transform is left current afterwards.
   */
  function TmpTextSetColorPrefix(e: Applier, scene: Scene, id: int, value: Color, s: Settings): (r: (Color, Applier))
    ensures r.0.a == value.a
    ensures TextPassThrough(e, scene, id, s) ==> r == (value, e)
    ensures s.skipRichTextColoredSegments && Spread(value) > 0.35 ==> r.0 == value
    ensures r.1 == e.(excl := r.1.excl, currentText := r.1.currentText)
    ensures e.currentText.None? ==> r.1.currentText.None?
    ensures !TextPassThrough(e, scene, id, s) ==>
      r.1.excl == IsExcludedForText(e.excl, Some(scene[id].node), s.extraExcludeTokens).1
    ensures !TextPassThrough(e, scene, id, s) && IsExcludedForText(e.excl, Some(scene[id].node), s.extraExcludeTokens).0 ==>
      r.0 == value
    ensures !TextPassThrough(e, scene, id, s) && !TextSkipped(e, scene, id, value, s) ==>
      && r.0 == TintTextIncoming(s, Some(scene[id].node), value)
      && r.1.currentText.None?
    ensures !TextPassThrough(e, scene, id, s) && r.0 != value ==>
      && !IsExcludedForText(e.excl, Some(scene[id].node), s.extraExcludeTokens).0
      && TextInkFor(s, Some(scene[id].node)).Ink?
      && RgbBetween(r.0, value, TextInkFor(s, Some(scene[id].node)).color)
    ensures Valid(e) ==> Valid(r.1)
  {
    if TextPassThrough(e, scene, id, s) then (value, e)
    else
      var g := scene[id];
      var (excluded, excl) := IsExcludedForText(e.excl, Some(g.node), s.extraExcludeTokens);
      EnsureKeepsCurrent(e.excl, s.extraExcludeTokens);
      var e1 := e.(excl := excl);
      if excluded then (value, e1)
      else if s.skipRichTextColoredSegments && Spread(value) > 0.35 then (value, e1)
      else
        // the text's transform is current only for the duration of the call
        var c := TintTextIncoming(s, Some(g.node), value);
        (WithAlpha(c, value.a), e1.(currentText := None))
  }

  /**
   * With a sound text memo built for the current exclude string, the text
   * hook never alters a colour assigned to an excluded text.
   */
  lemma ExcludedTextUntouchedByHook(e: Applier, scene: Scene, id: int, value: Color, s: Settings, world: Transforms)
    requires Valid(e) && MemoSound(e.excl, world) && SceneKnown(world, scene)
    requires e.excl.key == KeyOf(s.extraExcludeTokens)
    requires id in scene && TextVerdict(scene[id].node.names, BuildExcludeTokens(s.extraExcludeTokens))
    ensures TmpTextSetColorPrefix(e, scene, id, value, s).0 == value
  {
    if !TextPassThrough(e, scene, id, s) {
      var node := scene[id].node;
      assert Known(world, node);
      TextMemoTransparent(e.excl, node, s.extraExcludeTokens, world);
      EnsureRefreshesTokens(e.excl, s.extraExcludeTokens);
      var verdict := IsExcludedForText(e.excl, Some(node), s.extraExcludeTokens);
      assert verdict.1.tokens == BuildExcludeTokens(s.extraExcludeTokens);
      assert verdict.0;
    }
  }

  /**
   * The hook and ApplyTextToAll's loop agree: for a colour that is not a
   * skipped coloured segment, the hook stores exactly what one iteration of
   * the pass would write over a text showing that colour.
   */
  lemma HookAgreesWithTextPass(e: Applier, scene: Scene, id: int, value: Color, s: Settings)
    requires !TextPassThrough(e, scene, id, s)
    requires !(s.skipRichTextColoredSegments && Spread(value) > 0.35)
    ensures var shown := scene[id := scene[id].(color := value)];
      var (e', scene') := TextStep(e, shown, id, s);
      scene'[id].color == TmpTextSetColorPrefix(e, scene, id, value, s).0
  {
  }
}

=== FILE: scenes.dfy ===
/**
 * The slice of the Unity object graph the engine observes: live graphics by
 * instance id (a missing id is a destroyed object, Unity's "== null"),
 * canvases with the image and raw-image lists GetComponentsInChildren would
 * return, and the restore walk shared by the tint and HUD stores.
 */
module Scenes {
  import opened Options
  import opened Colors
  import opened Strings
  import opened Classifier

  datatype Kind = Image | RawImage | Text | OtherGraphic

  /**
   * A Graphic component.  `selectableTarget` says whether a Selectable on the
   * object or on an ancestor uses this graphic as its target graphic.
   */
  datatype Graphic = Graphic(
    kind: Kind,
    node: Node,
    rect: Option<Size>,
    color: Color,
    enabled: bool,
    raycastTarget: bool,
    selectableTarget: bool)

  /** Live graphics by instance id. */
  type Scene = map<int, Graphic>

  /** A canvas with the Image and RawImage components beneath it, inactive ones included. */
  datatype Canvas = Canvas(node: Node, images: seq<int>, raws: seq<int>)

  /** The ids that still name a live graphic, in their original order. */
  function LiveOnly(ids: seq<int>, scene: Scene): (r: seq<int>)
    ensures forall x :: x in r <==> x in ids && x in scene
    ensures NoDup(ids) ==> NoDup(r)
  {
    if |ids| == 0 then []
    else
      var rest := LiveOnly(ids[1..], scene);
      assert forall x :: x in ids <==> x == ids[0] || x in ids[1..];
      if ids[0] in scene then
        assert NoDup(ids) ==> NoDup(ids[1..]) by {
          if NoDup(ids) {
            forall i, j | 0 <= i < j < |ids[1..]|
              ensures ids[1..][i] != ids[1..][j]
            {
              assert ids[1..][i] == ids[i + 1] && ids[1..][j] == ids[j + 1];
            }
          }
        }
        [ids[0]] + rest
      else
        assert NoDup(ids) ==> NoDup(ids[1..]) by {
          if NoDup(ids) {
            forall i, j | 0 <= i < j < |ids[1..]|
              ensures ids[1..][i] != ids[1..][j]
            {
              assert ids[1..][i] == ids[i + 1] && ids[1..][j] == ids[j + 1];
            }
          }
        }
        rest
  }

  /** Pruning depends only on which objects exist, not on their state. */
  lemma {:induction false} LiveOnlySameKeys(ids: seq<int>, a: Scene, b: Scene)
    requires a.Keys == b.Keys
    ensures LiveOnly(ids, a) == LiveOnly(ids, b)
    decreases |ids|
  {
    if |ids| > 0 {
      LiveOnlySameKeys(ids[1..], a, b);
    }
  }

  /**
   * The scene after every live tracked graphic got its stored snapshot
   * written back through `put`; every other graphic is left as it was.
   */
  function Restored<V>(stored: map<int, V>, tracked: seq<int>, scene: Scene, put: (Graphic, V) -> Graphic): Scene {
    map id | id in scene :: if id in tracked && id in stored then put(scene[id], stored[id]) else scene[id]
  }

  /** Prepending a destroyed id to the walk changes nothing. */
  lemma RestoredSkipsDead<V>(stored: map<int, V>, id: int, rest: seq<int>, scene: Scene, put: (Graphic, V) -> Graphic)
    requires id !in scene
    ensures Restored(stored, [id] + rest, scene, put) == Restored(stored, rest, scene, put)
    ensures LiveOnly([id] + rest, scene) == LiveOnly(rest, scene)
  {
    assert ([id] + rest)[1..] == rest;
  }

  /** Prepending a live id not yet in the walk adds exactly its own write-back. */
  lemma RestoredStep<V>(stored: map<int, V>, id: int, rest: seq<int>, scene: Scene, put: (Graphic, V) -> Graphic)
    requires id in scene && id !in rest
    ensures Restored(stored, [id] + rest, scene, put) ==
      (var done := Restored(stored, rest, scene, put);
       if id in stored then done[id := put(scene[id], stored[id])] else done)
    ensures LiveOnly([id] + rest, scene) == [id] + LiveOnly(rest, scene)
  {
    assert ([id] + rest)[1..] == rest;
    var lhs := Restored(stored, [id] + rest, scene, put);
    var done := Restored(stored, rest, scene, put);
    var rhs := if id in stored then done[id := put(scene[id], stored[id])] else done;
    assert lhs.Keys == rhs.Keys;
    forall x | x in lhs
      ensures lhs[x] == rhs[x]
    {
      assert x in [id] + rest <==> x == id || x in rest;
    }
  }

  lemma NoDupHeadNotInTail(xs: seq<int>, i: int)
    requires NoDup(xs) && 0 <= i < |xs|
    ensures xs[i] !in xs[i + 1..]
  {
  }

  /** One backward step of the restore walk over a destroyed entry: the entry leaves the kept list. */
  lemma KeptDropsDead(tracked: seq<int>, i: int, kept: seq<int>, scene: Scene)
    requires 0 <= i < |tracked| && tracked[i] !in scene
    requires kept == tracked[..i + 1] + LiveOnly(tracked[i + 1..], scene)
    ensures kept[..i] + kept[i + 1..] == tracked[..i] + LiveOnly(tracked[i..], scene)
  {
    assert tracked[i..] == [tracked[i]] + tracked[i + 1..];
    assert LiveOnly(tracked[i..], scene) == LiveOnly(tracked[i + 1..], scene) by {
      assert tracked[i..][1..] == tracked[i + 1..];
    }
    assert kept[..i] == tracked[..i];
    assert kept[i + 1..] == LiveOnly(tracked[i + 1..], scene);
  }

  /** One backward step of the restore walk over a live entry: the entry stays in the kept list. */
  lemma KeptKeepsLive(tracked: seq<int>, i: int, kept: seq<int>, scene: Scene)
    requires 0 <= i < |tracked| && tracked[i] in scene
    requires kept == tracked[..i + 1] + LiveOnly(tracked[i + 1..], scene)
    ensures kept == tracked[..i] + LiveOnly(tracked[i..], scene)
  {
    assert tracked[i..][1..] == tracked[i + 1..];
    assert LiveOnly(tracked[i..], scene) == [tracked[i]] + LiveOnly(tracked[i + 1..], scene);
    assert tracked[..i + 1] == tracked[..i] + [tracked[i]];
  }

  /**
   * The restore walk of RestoreTintOnly and RestoreHudOnly: visit the tracked
   * list from its end, drop destroyed entries, and write back the stored
   * snapshot of each live one that has one.
   */
  method RestoreTracked<V>(stored: map<int, V>, tracked: seq<int>, scene: Scene, put: (Graphic, V) -> Graphic)
    returns (kept: seq<int>, scene': Scene)
    requires NoDup(tracked)
    ensures kept == LiveOnly(tracked, scene)
    ensures scene' == Restored(stored, tracked, scene, put)
  {
    kept := tracked;
    scene' := scene;
    var i := |tracked| - 1;
    assert tracked[i + 1..] == [];
    assert scene == Restored(stored, [], scene, put);
    while i >= 0
      invariant -1 <= i < |tracked|
      invariant kept == tracked[..i + 1] + LiveOnly(tracked[i + 1..], scene)
      invariant scene' == Restored(stored, tracked[i + 1..], scene, put)
    {
      var id := tracked[i];
      ghost var rest := tracked[i + 1..];
      assert tracked[i..] == [id] + rest;
      NoDupHeadNotInTail(tracked, i);
      if id !in scene {
        RestoredSkipsDead(stored, id, rest, scene, put);
        KeptDropsDead(tracked, i, kept, scene);
        kept := kept[..i] + kept[i + 1..];
      } else {
        RestoredStep(stored, id, rest, scene, put);
        KeptKeepsLive(tracked, i, kept, scene);
        assert scene'[id] == scene[id];
        if id in stored {
          scene' := scene'[id := put(scene'[id], stored[id])];
        }
      }
      i := i - 1;
    }
    assert tracked[0..] == tracked;
  }

  // ---------------------------------------------------------------- work lists

  /** Which of the two tables a graphic is recorded in. */
  datatype Slot = ImageSlot | RawSlot

  /** The table the hooks use for a graphic of this kind. */
  function SlotOfKind(k: Kind): Slot {
    if k == Image then ImageSlot else RawSlot
  }

  predicate IsImageLike(k: Kind) {
    k == Image || k == RawImage
  }

  /** One entry of a pass over a canvas: a graphic id and the table its loop uses. */
  datatype Item = Item(slot: Slot, id: int)

  function Items(slot: Slot, ids: seq<int>): (w: seq<Item>)
    ensures |w| == |ids|
    ensures forall i :: 0 <= i < |ids| ==> w[i] == Item(slot, ids[i])
  {
    seq(|ids|, i requires 0 <= i < |ids| => Item(slot, ids[i]))
  }

  /** The images loop followed by the raw-images loop of one canvas. */
  function RootWork(c: Canvas): seq<Item> {
    Items(ImageSlot, c.images) + Items(RawSlot, c.raws)
  }

  /** Every live entry sits in the table that matches its component type. */
  predicate WellTyped(work: seq<Item>, scene: Scene) {
    forall i :: 0 <= i < |work| && work[i].id in scene ==> work[i].slot == SlotOfKind(scene[work[i].id].kind)
  }

  /** Only colours change: the same graphics, each with everything but its colour kept. */
  predicate SameShape(scene: Scene, scene': Scene) {
    scene'.Keys == scene.Keys && forall id :: id in scene ==> scene'[id] == scene[id].(color := scene'[id].color)
  }

  /** The work lists of all live canvases, one after another. */
  function AllWork(canvases: seq<Option<Canvas>>): seq<Item>
    decreases |canvases|
  {
    if |canvases| == 0 then []
    else (if canvases[0].Some? then RootWork(canvases[0].value) else []) + AllWork(canvases[1..])
  }

  /** Every canvas lists only Image components as images and RawImage components as raw images. */
  predicate CanvasesTyped(canvases: seq<Option<Canvas>>, scene: Scene) {
    forall k :: 0 <= k < |canvases| && canvases[k].Some? ==>
      && (forall id :: id in canvases[k].value.images && id in scene ==> scene[id].kind == Image)
      && (forall id :: id in canvases[k].value.raws && id in scene ==> scene[id].kind == RawImage)
  }

  /** A canvas's own work list is well typed when its component lists are. */
  lemma RootWorkWellTyped(c: Canvas, scene: Scene)
    requires forall id :: id in c.images && id in scene ==> scene[id].kind == Image
    requires forall id :: id in c.raws && id in scene ==> scene[id].kind == RawImage
    ensures WellTyped(RootWork(c), scene)
  {
    var w := RootWork(c);
    forall i | 0 <= i < |w| && w[i].id in scene
      ensures w[i].slot == SlotOfKind(scene[w[i].id].kind)
    {
      if i < |c.images| {
        assert w[i] == Item(ImageSlot, c.images[i]);
      } else {
        assert w[i] == Item(RawSlot, c.raws[i - |c.images|]);
      }
    }
  }

  lemma {:induction false} AllWorkWellTyped(canvases: seq<Option<Canvas>>, scene: Scene)
    requires CanvasesTyped(canvases, scene)
    ensures WellTyped(AllWork(canvases), scene)
    decreases |canvases|
  {
    if |canvases| > 0 {
      assert CanvasesTyped(canvases[1..], scene) by {
        forall k | 0 <= k < |canvases[1..]| && canvases[1..][k].Some?
          ensures forall id :: id in canvases[1..][k].value.images && id in scene ==> scene[id].kind == Image
          ensures forall id :: id in canvases[1..][k].value.raws && id in scene ==> scene[id].kind == RawImage
        {
          assert canvases[1..][k] == canvases[k + 1];
        }
      }
      AllWorkWellTyped(canvases[1..], scene);
      var head: seq<Item> := if canvases[0].Some? then RootWork(canvases[0].value) else [];
      if canvases[0].Some? {
        RootWorkWellTyped(canvases[0].value, scene);
      }
      var rest := AllWork(canvases[1..]);
      forall i | 0 <= i < |head + rest| && (head + rest)[i].id in scene
        ensures (head + rest)[i].slot == SlotOfKind(scene[(head + rest)[i].id].kind)
      {
        if i >= |head| {
          assert (head + rest)[i] == rest[i - |head|];
        }
      }
    }
  }
}

=== FILE: strings.dfy ===
/**
 * The handful of .NET string operations the classifier and the exclude-token
 * parser rely on: invariant lower-casing, ordinal substring search, Trim,
 * Split(',', RemoveEmptyEntries) and LINQ's Distinct.
 */
module Strings {

  // ---------------------------------------------------------------- case

  predicate IsUpper(c: char) {
    'A' <= c <= 'Z'
  }

  /** ToLowerInvariant on one character, restricted to the ASCII letters. */
  function LowerChar(c: char): (l: char)
    ensures !IsUpper(l)
    ensures !IsUpper(c) ==> l == c
  {
    if IsUpper(c) then (c as int + 32) as char else c
  }

  predicate IsLowered(s: string) {
    forall i :: 0 <= i < |s| ==> !IsUpper(s[i])
  }

  function Lower(s: string): (l: string)
    ensures |l| == |s|
    ensures forall i :: 0 <= i < |s| ==> l[i] == LowerChar(s[i])
    ensures IsLowered(l)
  {
    if |s| == 0 then "" else [LowerChar(s[0])] + Lower(s[1..])
  }

  lemma LowerOfLowered(s: string)
    requires IsLowered(s)
    ensures Lower(s) == s
  {
  }

  // ---------------------------------------------------------------- search

  /** `t` occurs in `s` starting at index `i`. */
  predicate OccursAt(s: string, t: string, i: int) {
    0 <= i && i + |t| <= |s| && s[i..i + |t|] == t
  }

  /** String.Contains with ordinal comparison: a prefix test at every start position. */
  predicate Contains(s: string, t: string)
    decreases |s|
  {
    |t| <= |s| && (s[..|t|] == t || Contains(s[1..], t))
  }

  /** Contains holds exactly when the needle occurs at some index. */
  lemma {:induction false} ContainsIff(s: string, t: string)
    ensures Contains(s, t) <==> exists i :: OccursAt(s, t, i)
    decreases |s|
  {
    if |t| > |s| {
      if i :| OccursAt(s, t, i) {
        assert false;
      }
    } else if s[..|t|] == t {
      assert OccursAt(s, t, 0);
    } else {
      ContainsIff(s[1..], t);
      if Contains(s[1..], t) {
        var i :| OccursAt(s[1..], t, i);
        assert s[1..][i..i + |t|] == s[i + 1..i + 1 + |t|];
        assert OccursAt(s, t, i + 1);
      }
      if i :| OccursAt(s, t, i) {
        assert i != 0 by {
          assert s[0..|t|] == s[..|t|];
        }
        assert s[1..][i - 1..i - 1 + |t|] == s[i..i + |t|];
        assert OccursAt(s[1..], t, i - 1);
      }
    }
  }

  /** A substring of a substring is a substring. */
  lemma ContainsTransitive(s: string, t: string, u: string)
    requires Contains(s, t) && Contains(t, u)
    ensures Contains(s, u)
  {
    ContainsIff(s, t);
    ContainsIff(t, u);
    var i :| OccursAt(s, t, i);
    var j :| OccursAt(t, u, j);
    assert s[i + j..i + j + |u|] == u by {
      forall k | 0 <= k < |u|
        ensures s[i + j + k] == u[k]
      {
        assert u[k] == t[j..j + |u|][k];
        assert t[j + k] == s[i..i + |t|][j + k];
      }
    }
    assert OccursAt(s, u, i + j);
    ContainsIff(s, u);
  }

  /** A literal needle found at a known index. */
  lemma ContainsAt(s: string, t: string, i: int)
    requires OccursAt(s, t, i)
    ensures Contains(s, t)
  {
    ContainsIff(s, t);
  }

  // ---------------------------------------------------------------- trim

  /** .NET Char.IsWhiteSpace: the Unicode separators plus U+0009..U+000D and U+0085. */
  predicate IsWhiteSpace(c: char) {
    || c == ' '
    || '\t' <= c <= '\r'
    || c == '\U{0085}'
    || c == '\U{00A0}'
    || c == '\U{1680}'
    || '\U{2000}' <= c <= '\U{200A}'
    || c == '\U{2028}'
    || c == '\U{2029}'
    || c == '\U{202F}'
    || c == '\U{205F}'
    || c == '\U{3000}'
  }

  predicate AllWhiteSpace(s: string) {
    forall i :: 0 <= i < |s| ==> IsWhiteSpace(s[i])
  }

  /** Neither end of the string is white space. */
  predicate Trimmed(s: string) {
    |s| == 0 || (!IsWhiteSpace(s[0]) && !IsWhiteSpace(s[|s| - 1]))
  }

  /** Length of the leading run of white space. */
  function LeadingSpace(s: string): (k: nat)
    ensures k <= |s|
    ensures AllWhiteSpace(s[..k])
    ensures k < |s| ==> !IsWhiteSpace(s[k])
  {
    if |s| > 0 && IsWhiteSpace(s[0]) then
      var k := 1 + LeadingSpace(s[1..]);
      assert forall i :: 1 <= i < k ==> s[..k][i] == s[1..][..k - 1][i - 1];
      k
    else 0
  }

  /** Length of the trailing run of white space. */
  function TrailingSpace(s: string): (k: nat)
    ensures k <= |s|
    ensures AllWhiteSpace(s[|s| - k..])
    ensures k < |s| ==> !IsWhiteSpace(s[|s| - k - 1])
  {
    if |s| > 0 && IsWhiteSpace(s[|s| - 1]) then
      var p := s[..|s| - 1];
      var j := TrailingSpace(p);
      assert s[|s| - (j + 1)..] == p[|p| - j..] + [s[|s| - 1]];
      WhiteSpaceSnoc(p[|p| - j..], s[|s| - 1]);
      assert j + 1 < |s| ==> s[|s| - (j + 1) - 1] == p[|p| - j - 1];
      j + 1
    else 0
  }

  lemma WhiteSpaceSnoc(a: string, c: char)
    requires AllWhiteSpace(a) && IsWhiteSpace(c)
    ensures AllWhiteSpace(a + [c])
  {
  }

  /** When nothing is left between the two runs, the whole string was white space. */
  lemma TrimEmpty(s: string, a: nat, b: nat)
    requires a <= |s| && AllWhiteSpace(s[..a]) && (a < |s| ==> !IsWhiteSpace(s[a]))
    requires b == |s| - a && AllWhiteSpace(s[a..])
    ensures AllWhiteSpace(s)
  {
    if a < |s| {
      assert false;
    }
    assert s[..a] == s;
  }

  /** The slice between a leading and a trailing run of white space. */
  lemma TrimSlice(s: string, a: nat, b: nat)
    requires a <= |s| && AllWhiteSpace(s[..a]) && (a < |s| ==> !IsWhiteSpace(s[a]))
    requires b <= |s| - a && AllWhiteSpace(s[a..][|s| - a - b..])
    requires b < |s| - a ==> !IsWhiteSpace(s[a..][|s| - a - b - 1])
    ensures OccursAt(s, s[a..|s| - b], a)
    ensures Trimmed(s[a..|s| - b])
    ensures |s[a..|s| - b]| == 0 <==> AllWhiteSpace(s)
  {
    var r := s[a..|s| - b];
    if |r| == 0 {
      assert s[a..][|s| - a - b..] == s[a..];
      TrimEmpty(s, a, b);
    } else {
      assert r[0] == s[a];
      assert r[|r| - 1] == s[a..][|s| - a - b - 1];
    }
  }

  /**
   * String.Trim: the white space at both ends removed.  The result is a
   * slice of the input with only white space before and after it, is itself
   * trimmed, and is empty exactly when the input was white space only.
   */
  function Trim(s: string): (r: string)
    ensures Trimmed(r)
    ensures exists i :: OccursAt(s, r, i) && BlankOutside(s, i, i + |r|)
    ensures |r| == 0 <==> AllWhiteSpace(s)
  {
    var a := LeadingSpace(s);
    var b := TrailingSpace(s[a..]);
    TrimSlice(s, a, b);
    assert s[|s| - b..] == s[a..][|s| - a - b..];
    BlankAround(s, a, |s| - b);
    s[a..|s| - b]
  }

  /** Every character of `s` outside the index range [i, j) is white space. */
  predicate BlankOutside(s: string, i: int, j: int) {
    forall k :: 0 <= k < |s| && !(i <= k < j) ==> IsWhiteSpace(s[k])
  }

  lemma BlankAround(s: string, i: int, j: int)
    requires 0 <= i <= j <= |s| && AllWhiteSpace(s[..i]) && AllWhiteSpace(s[j..])
    ensures BlankOutside(s, i, j)
  {
    forall k | 0 <= k < |s| && !(i <= k < j)
      ensures IsWhiteSpace(s[k])
    {
      if k < i {
        assert s[..i][k] == s[k];
      } else {
        assert s[j..][k - j] == s[k];
      }
    }
  }

  /**
   * Trim removes white space at the ends and nothing else: padding a
   * trimmed, non-empty string with white space on both sides and trimming
   * gives that string back.
   */
  lemma TrimUnpads(w1: string, t: string, w2: string)
    requires AllWhiteSpace(w1) && AllWhiteSpace(w2) && Trimmed(t) && |t| > 0
    ensures Trim(w1 + t + w2) == t
  {
    var s := w1 + t + w2;
    var lo, hi := |w1|, |w1| + |t|;
    assert s[..lo] == w1 && s[hi..] == w2 && s[lo..hi] == t;
    BlankAround(s, lo, hi);
    TrimOfPadded(s, lo, hi);
  }

  /** A trimmed, non-empty slice with only white space around it is what Trim returns. */
  lemma TrimOfPadded(s: string, lo: int, hi: int)
    requires 0 <= lo < hi <= |s| && Trimmed(s[lo..hi]) && BlankOutside(s, lo, hi)
    ensures Trim(s) == s[lo..hi]
  {
    var r := Trim(s);
    assert !IsWhiteSpace(s[lo]) && !IsWhiteSpace(s[hi - 1]) by {
      assert s[lo] == s[lo..hi][0] && s[hi - 1] == s[lo..hi][hi - lo - 1];
    }
    assert |r| > 0 by {
      assert !AllWhiteSpace(s) by {
        assert !IsWhiteSpace(s[lo]);
      }
    }
    var i :| OccursAt(s, r, i) && BlankOutside(s, i, i + |r|);
    var j := i + |r|;
    assert !IsWhiteSpace(s[i]) && !IsWhiteSpace(s[j - 1]) by {
      assert s[i..j] == r;
      assert s[i] == r[0] && s[j - 1] == r[|r| - 1];
    }
    SameRun(s, lo, hi, i, j);
  }

  /** Two non-blank runs, each with only white space outside it, are the same run. */
  lemma SameRun(s: string, lo: int, hi: int, i: int, j: int)
    requires 0 <= lo < hi <= |s| && 0 <= i < j <= |s|
    requires BlankOutside(s, lo, hi) && !IsWhiteSpace(s[lo]) && !IsWhiteSpace(s[hi - 1])
    requires BlankOutside(s, i, j) && !IsWhiteSpace(s[i]) && !IsWhiteSpace(s[j - 1])
    ensures i == lo && j == hi
  {
  }

  lemma LowerChangesNoSpace(c: char)
    ensures IsWhiteSpace(LowerChar(c)) == IsWhiteSpace(c)
  {
  }

  /** Lower-casing a trimmed string leaves it trimmed. */
  lemma LowerKeepsTrimmed(s: string)
    requires Trimmed(s)
    ensures Trimmed(Lower(s))
  {
    if |s| > 0 {
      LowerChangesNoSpace(s[0]);
      LowerChangesNoSpace(s[|s| - 1]);
    }
  }

  // ---------------------------------------------------------------- split

  /** Index of the first comma, or the length when there is none. */
  function FirstComma(s: string): (k: nat)
    ensures k <= |s|
    ensures ',' !in s[..k]
    ensures k < |s| ==> s[k] == ','
  {
    if |s| == 0 || s[0] == ',' then 0
    else
      var k := 1 + FirstComma(s[1..]);
      assert s[..k] == [s[0]] + s[1..][..k - 1];
      k
  }

  /** The string with every comma deleted. */
  function Uncomma(s: string): string {
    if |s| == 0 then "" else (if s[0] == ',' then "" else [s[0]]) + Uncomma(s[1..])
  }

  function Flatten(parts: seq<string>): string {
    if |parts| == 0 then "" else parts[0] + Flatten(parts[1..])
  }

  lemma {:induction false} UncommaAppend(a: string, b: string)
    ensures Uncomma(a + b) == Uncomma(a) + Uncomma(b)
    decreases |a|
  {
    if |a| == 0 {
      assert a + b == b;
    } else {
      assert (a + b)[1..] == a[1..] + b;
      UncommaAppend(a[1..], b);
    }
  }

  lemma {:induction false} UncommaOfCommaFree(a: string)
    requires ',' !in a
    ensures Uncomma(a) == a
    decreases |a|
  {
    if |a| > 0 {
      assert ',' !in a[1..];
      UncommaOfCommaFree(a[1..]);
      assert a == [a[0]] + a[1..];
    }
  }

  /** Deleting commas up to the first one keeps the comma-free head verbatim. */
  lemma UncommaAtFirstComma(s: string, k: nat)
    requires k <= |s| && ',' !in s[..k] && (k < |s| ==> s[k] == ',')
    ensures k < |s| ==> Uncomma(s) == s[..k] + Uncomma(s[k + 1..])
    ensures k == |s| ==> Uncomma(s) == s
  {
    if k == |s| {
      assert s[..k] == s;
      UncommaOfCommaFree(s);
    } else {
      var head, tail := s[..k], s[k..];
      assert s == head + tail;
      UncommaAppend(head, tail);
      UncommaOfCommaFree(head);
      assert tail[0] == ',' && tail[1..] == s[k + 1..];
      assert Uncomma(tail) == Uncomma(s[k + 1..]);
    }
  }

  /**
   * String.Split(',', RemoveEmptyEntries): the maximal comma-free runs, empty
   * ones dropped.  No part is empty or holds a comma, and gluing the parts
   * back together gives the input with its commas deleted.
   */
  function SplitComma(s: string): (parts: seq<string>)
    ensures forall p :: p in parts ==> |p| > 0 && ',' !in p
    ensures Flatten(parts) == Uncomma(s)
    decreases |s|
  {
    if |s| == 0 then []
    else
      var k := FirstComma(s);
      var head := s[..k];
      var tail := if k < |s| then Uncomma(s[k + 1..]) else "";
      assert Uncomma(s) == head + tail by {
        UncommaAtFirstComma(s, k);
        if k == |s| {
          assert head == s && head + tail == head;
        }
      }
      var rest := if k < |s| then SplitComma(s[k + 1..]) else [];
      ConsPart(head, rest, tail);
      if |head| > 0 then [head] + rest else rest
  }

  /** Putting a comma-free field in front of the later parts, unless it is empty. */
  lemma ConsPart(head: string, rest: seq<string>, tail: string)
    requires ',' !in head
    requires forall p :: p in rest ==> |p| > 0 && ',' !in p
    requires Flatten(rest) == tail
    ensures var parts := if |head| > 0 then [head] + rest else rest;
      && (forall p :: p in parts ==> |p| > 0 && ',' !in p)
      && Flatten(parts) == head + tail
  {
    if |head| > 0 {
      assert ([head] + rest)[1..] == rest;
    } else {
      assert head + tail == tail;
    }
  }

  /**
   * The comma-separated fields of `s`, empty ones included, built one
   * character at a time: a comma opens a new field, any other character
   * extends the first one.
   */
  function Pieces(s: string): (ps: seq<string>)
    ensures |ps| >= 1
    decreases |s|
  {
    if |s| == 0 then [""]
    else
      var p := Pieces(s[1..]);
      if s[0] == ',' then [""] + p else [[s[0]] + p[0]] + p[1..]
  }

  /** The fields glued back together with a comma between neighbours. */
  function JoinComma(ps: seq<string>): string
    requires |ps| >= 1
    decreases |ps|
  {
    if |ps| == 1 then ps[0] else ps[0] + "," + JoinComma(ps[1..])
  }

  /** The fields of `xs` that are not empty, in order. */
  function NonEmpty(xs: seq<string>): seq<string>
    decreases |xs|
  {
    if |xs| == 0 then [] else (if |xs[0]| > 0 then [xs[0]] else []) + NonEmpty(xs[1..])
  }

  /** Reference reading of Split(',', RemoveEmptyEntries): the non-empty fields. */
  function Runs(s: string): seq<string> {
    NonEmpty(Pieces(s))
  }

  /** A leading comma opens an empty first field. */
  lemma JoinEmptyFirst(p: seq<string>)
    requires |p| >= 1
    ensures JoinComma([""] + p) == "," + JoinComma(p)
  {
    assert ([""] + p)[1..] == p;
  }

  lemma ConcatAssoc(x: string, y: string, z: string)
    ensures (x + y) + z == x + (y + z)
  {
  }

  /** A leading non-comma character extends the first field. */
  lemma JoinExtendFirst(c: char, p: seq<string>)
    requires |p| >= 1
    ensures JoinComma([[c] + p[0]] + p[1..]) == [c] + JoinComma(p)
  {
    var a := [c] + p[0];
    var q := [a] + p[1..];
    assert q[0] == a && q[1..] == p[1..];
    if |p| > 1 {
      var j := JoinComma(p[1..]);
      calc {
        JoinComma(q);
        (a + ",") + j;
        { ConcatAssoc([c], p[0], ","); }
        ([c] + (p[0] + ",")) + j;
        { ConcatAssoc([c], p[0] + ",", j); }
        [c] + ((p[0] + ",") + j);
        [c] + JoinComma(p);
      }
    } else {
      assert JoinComma(q) == a;
    }
  }

  /** No field holds a comma. */
  lemma {:induction false} PiecesCommaFree(s: string)
    ensures forall p :: p in Pieces(s) ==> ',' !in p
    decreases |s|
  {
    if |s| > 0 {
      var p := Pieces(s[1..]);
      PiecesCommaFree(s[1..]);
      if s[0] != ',' {
        assert p[0] in p;
        assert forall x :: x in p[1..] ==> x in p;
      }
    }
  }

  /**
   * The fields are exactly the comma-separated reading of `s`: none holds a
   * comma, and joining them with commas gives `s` back.
   */
  lemma {:induction false} PiecesJoin(s: string)
    ensures forall p :: p in Pieces(s) ==> ',' !in p
    ensures JoinComma(Pieces(s)) == s
    decreases |s|
  {
    PiecesCommaFree(s);
    if |s| > 0 {
      var p := Pieces(s[1..]);
      PiecesJoin(s[1..]);
      assert s == [s[0]] + s[1..];
      if s[0] == ',' {
        JoinEmptyFirst(p);
      } else {
        JoinExtendFirst(s[0], p);
      }
    }
  }

  /** Where the first comma falls, the first field ends. */
  lemma {:induction false} PiecesAtFirstComma(s: string)
    ensures FirstComma(s) < |s| ==> Pieces(s) == [s[..FirstComma(s)]] + Pieces(s[FirstComma(s) + 1..])
    ensures FirstComma(s) == |s| ==> Pieces(s) == [s]
    decreases |s|
  {
    if |s| > 0 && s[0] != ',' {
      var k := FirstComma(s);
      var t := s[1..];
      PiecesAtFirstComma(t);
      assert FirstComma(t) == k - 1;
      assert s[..k] == [s[0]] + t[..k - 1];
      if k < |s| {
        assert t[k..] == s[k + 1..];
      } else {
        assert s == [s[0]] + t;
      }
    }
  }

  lemma NonEmptyCons(h: string, t: seq<string>)
    ensures NonEmpty([h] + t) == (if |h| > 0 then [h] else []) + NonEmpty(t)
  {
    assert ([h] + t)[1..] == t;
  }

  /** SplitComma yields exactly the non-empty comma-separated fields, in order. */
  lemma {:induction false} SplitCommaIsRuns(s: string)
    ensures SplitComma(s) == Runs(s)
    decreases |s|
  {
    if |s| > 0 {
      var k := FirstComma(s);
      var head := s[..k];
      var first := if k > 0 then [head] else [];
      SplitCommaUnfold(s);
      PiecesAtFirstComma(s);
      if k < |s| {
        var t := s[k + 1..];
        SplitCommaIsRuns(t);
        NonEmptyCons(head, Pieces(t));
        assert Runs(s) == first + Runs(t);
      } else {
        assert head == s;
        NonEmptyCons(s, []);
        assert Runs(s) == first;
      }
    }
  }

  /** One step of SplitComma: the field before the first comma, if non-empty, then the rest. */
  lemma SplitCommaUnfold(s: string)
    requires |s| > 0
    ensures SplitComma(s) ==
      (if FirstComma(s) > 0 then [s[..FirstComma(s)]] else []) +
      (if FirstComma(s) < |s| then SplitComma(s[FirstComma(s) + 1..]) else [])
  {
  }

  // ---------------------------------------------------------------- distinct

  predicate NoDup<T(==)>(xs: seq<T>) {
    forall i, j :: 0 <= i < j < |xs| ==> xs[i] != xs[j]
  }

  /**
   * LINQ Distinct on strings: the first occurrence of every element not in
   * `seen`, in order.  The result has no duplicates and holds exactly the
   * elements of `xs` outside `seen`.
   */
  function DistinctFrom(xs: seq<string>, seen: set<string>): (r: seq<string>)
    ensures NoDup(r)
    ensures forall x :: x in r <==> x in xs && x !in seen
    decreases |xs|
  {
    if |xs| == 0 then []
    else if xs[0] in seen then
      assert forall x :: x in xs <==> x == xs[0] || x in xs[1..];
      DistinctFrom(xs[1..], seen)
    else
      var tail := DistinctFrom(xs[1..], seen + {xs[0]});
      assert forall x :: x in xs <==> x == xs[0] || x in xs[1..];
      [xs[0]] + tail
  }

  function Distinct(xs: seq<string>): (r: seq<string>)
    ensures NoDup(r)
    ensures forall x :: x in r <==> x in xs
  {
    DistinctFrom(xs, {})
  }
}

=== FILE: tint.dfy ===
/**
 * The original-colour store and the background tint of ThemeApplier:
 * TintImage / TintRaw record a graphic's colour the first time they touch it
 * and always write BlendMultiply of that recorded original; RestoreTintOnly
 * writes the originals back; TintIncomingStable is the same blend applied to
 * a colour the game itself is assigning.
 */
module Tint {
  import opened Options
  import opened Colors
  import opened Config
  import opened Strings
  import opened Classifier
  import opened Scenes

  // ---------------------------------------------------------------- store

  /** Originals by graphic id, plus the list of graphics recorded, in order. */
  datatype TintTable = TintTable(originals: map<int, Color>, tracked: seq<int>)

  /** The separate tables ThemeApplier keeps for Image and RawImage components. */
  datatype TintStore = TintStore(images: TintTable, raws: TintTable)

  /** Nothing is tracked twice, and everything tracked has an original. */
  predicate TableValid(t: TintTable) {
    NoDup(t.tracked) && forall id :: id in t.tracked ==> id in t.originals
  }

  predicate StoreValid(st: TintStore) {
    TableValid(st.images) && TableValid(st.raws)
  }

  function EmptyStore(): (st: TintStore)
    ensures StoreValid(st)
  {
    TintStore(TintTable(map[], []), TintTable(map[], []))
  }

  function TableOf(st: TintStore, slot: Slot): TintTable {
    if slot == ImageSlot then st.images else st.raws
  }

  function WithTable(st: TintStore, slot: Slot, t: TintTable): TintStore {
    if slot == ImageSlot then st.(images := t) else st.(raws := t)
  }

  // ---------------------------------------------------------------- one graphic

  /**
   * TintImage / TintRaw: record the current colour only if the graphic has no
   * original yet (the original is never overwritten), then write the blend of
   * the recorded original; only that graphic's colour changes.
   */
  function TintGraphic(t: TintTable, scene: Scene, id: int, target: Color, strength: real): (r: (TintTable, Scene))
    requires id in scene
    ensures id in r.0.originals
    ensures id in t.originals ==> r.0 == t
    ensures id !in t.originals ==>
      r.0.originals == t.originals[id := scene[id].color] && r.0.tracked == t.tracked + [id]
    ensures r.1 == scene[id := scene[id].(color := BlendMultiply(r.0.originals[id], target, strength))]
    ensures TableValid(t) ==> TableValid(r.0)
  {
    var t' := if id in t.originals then t else TintTable(t.originals[id := scene[id].color], t.tracked + [id]);
    assert TableValid(t) && id !in t.originals ==> NoDup(t'.tracked) by {
      if TableValid(t) && id !in t.originals {
        assert id !in t.tracked;
        forall i, j | 0 <= i < j < |t'.tracked|
          ensures t'.tracked[i] != t'.tracked[j]
        {
          if j == |t.tracked| {
            assert t'.tracked[i] == t.tracked[i];
          } else {
            assert t'.tracked[i] == t.tracked[i] && t'.tracked[j] == t.tracked[j];
          }
        }
      }
    }
    (t', scene[id := scene[id].(color := BlendMultiply(t'.originals[id], target, strength))])
  }

  /** Tinting the same graphic again with the same tint and strength changes nothing. */
  lemma TintGraphicNoDrift(t: TintTable, scene: Scene, id: int, target: Color, strength: real)
    requires id in scene
    ensures var (t1, s1) := TintGraphic(t, scene, id, target, strength);
      TintGraphic(t1, s1, id, target, strength) == (t1, s1)
  {
    var (t1, s1) := TintGraphic(t, scene, id, target, strength);
    assert s1[id := s1[id].(color := BlendMultiply(t1.originals[id], target, strength))] == s1;
  }

  // ---------------------------------------------------------------- decision

  datatype TintChoice = NoTint | TintWith(target: Color, strength: real)

  /**
   * The per-graphic cascade of ApplyToRoot.  A chat-panel graphic gets the
   * chat tint when chat tint is on and nothing otherwise; any other graphic
   * gets the UI tint exactly when the mod is enabled, it is outside the HUD
   * groups (or on a journal-like screen), it is not user-excluded, and it is
   * not a small image while small images are skipped.
   */
  function TintDecision(s: Settings, tokens: seq<string>, names: seq<string>, rect: Option<Size>): (d: TintChoice)
    ensures IsChatPanel(names) ==> (d.TintWith? <==> s.enableChatTint)
    ensures IsChatPanel(names) && d.TintWith? ==> d == TintWith(ChatTintColor(s), Clamp01(s.chatStrength))
    ensures !IsChatPanel(names) ==>
      (d.TintWith? <==>
        && s.enabled
        && (!IsHudGroup12345(names) || IsJournalLikeScreen(names))
        && !IsExcluded(names, tokens)
        && !(s.skipSmallImages && IsSmall(rect, s.smallImageMaxSize)))
    ensures !IsChatPanel(names) && d.TintWith? ==> d == TintWith(TintColor(s), Clamp01(s.strength))
  {
    if IsChatPanel(names) then
      if !s.enableChatTint then NoTint else TintWith(ChatTintColor(s), Clamp01(s.chatStrength))
    else if !s.enabled then NoTint
    else if IsHudGroup12345(names) && !IsJournalLikeScreen(names) then NoTint
    else if IsExcluded(names, tokens) then NoTint
    else if s.skipSmallImages && IsSmall(rect, s.smallImageMaxSize) then NoTint
    else TintWith(TintColor(s), Clamp01(s.strength))
  }

  function Decide(s: Settings, tokens: seq<string>, g: Graphic): TintChoice {
    TintDecision(s, tokens, g.node.names, g.rect)
  }

  // ---------------------------------------------------------------- passes

  /** One loop iteration of ApplyToRoot: destroyed graphics are skipped. */
  function TintStep(st: TintStore, scene: Scene, item: Item, s: Settings, tokens: seq<string>): (TintStore, Scene) {
    if item.id !in scene then (st, scene)
    else
      match Decide(s, tokens, scene[item.id])
      case NoTint => (st, scene)
      case TintWith(target, strength) =>
        var (t', scene') := TintGraphic(TableOf(st, item.slot), scene, item.id, target, strength);
        (WithTable(st, item.slot, t'), scene')
  }

  function TintPass(st: TintStore, scene: Scene, work: seq<Item>, s: Settings, tokens: seq<string>): (TintStore, Scene)
    decreases |work|
  {
    if |work| == 0 then (st, scene)
    else
      var (st1, scene1) := TintStep(st, scene, work[0], s, tokens);
      TintPass(st1, scene1, work[1..], s, tokens)
  }

  /** ThemeApplier.ApplyToRoot over one canvas, with the current exclude tokens. */
  function ApplyToRoot(st: TintStore, scene: Scene, c: Canvas, s: Settings, tokens: seq<string>): (TintStore, Scene) {
    TintPass(st, scene, RootWork(c), s, tokens)
  }

  /** The canvas loop of ApplyToAllCanvases; destroyed canvases are skipped. */
  function ApplyToCanvases(st: TintStore, scene: Scene, canvases: seq<Option<Canvas>>, s: Settings, tokens: seq<string>): (TintStore, Scene)
    decreases |canvases|
  {
    if |canvases| == 0 then (st, scene)
    else
      var (st1, scene1) := if canvases[0].Some? then ApplyToRoot(st, scene, canvases[0].value, s, tokens) else (st, scene);
      ApplyToCanvases(st1, scene1, canvases[1..], s, tokens)
  }

  lemma {:induction false} TintPassAppend(st: TintStore, scene: Scene, a: seq<Item>, b: seq<Item>, s: Settings, tokens: seq<string>)
    ensures TintPass(st, scene, a + b, s, tokens) ==
      (var (st1, scene1) := TintPass(st, scene, a, s, tokens); TintPass(st1, scene1, b, s, tokens))
    decreases |a|
  {
    if |a| == 0 {
      assert a + b == b;
    } else {
      assert (a + b)[0] == a[0];
      assert (a + b)[1..] == a[1..] + b;
      var (st1, scene1) := TintStep(st, scene, a[0], s, tokens);
      TintPassAppend(st1, scene1, a[1..], b, s, tokens);
    }
  }

  /** Tinting canvas after canvas is one pass over all their work lists. */
  lemma {:induction false} ApplyToCanvasesIsOnePass(st: TintStore, scene: Scene, canvases: seq<Option<Canvas>>, s: Settings, tokens: seq<string>)
    ensures ApplyToCanvases(st, scene, canvases, s, tokens) == TintPass(st, scene, AllWork(canvases), s, tokens)
    decreases |canvases|
  {
    if |canvases| > 0 {
      var head := if canvases[0].Some? then RootWork(canvases[0].value) else [];
      TintPassAppend(st, scene, head, AllWork(canvases[1..]), s, tokens);
      var (st1, scene1) := TintPass(st, scene, head, s, tokens);
      ApplyToCanvasesIsOnePass(st1, scene1, canvases[1..], s, tokens);
    }
  }

  // ---------------------------------------------------------------- pass invariants

  /** Every recorded original is still recorded with the same value. */
  predicate OriginalsKept(st: TintStore, st': TintStore) {
    && (forall id :: id in st.images.originals ==> id in st'.images.originals && st'.images.originals[id] == st.images.originals[id])
    && (forall id :: id in st.raws.originals ==> id in st'.raws.originals && st'.raws.originals[id] == st.raws.originals[id])
  }

  /** The graphic needs no further work: it shows the blend of its recorded original. */
  predicate Settled(st: TintStore, scene: Scene, item: Item, s: Settings, tokens: seq<string>) {
    item.id in scene ==>
      match Decide(s, tokens, scene[item.id])
      case NoTint => true
      case TintWith(target, strength) =>
        && item.id in TableOf(st, item.slot).originals
        && scene[item.id].color == BlendMultiply(TableOf(st, item.slot).originals[item.id], target, strength)
  }

  predicate AllSettled(st: TintStore, scene: Scene, work: seq<Item>, s: Settings, tokens: seq<string>) {
    forall i :: 0 <= i < |work| ==> Settled(st, scene, work[i], s, tokens)
  }

  lemma TintStepShape(st: TintStore, scene: Scene, item: Item, s: Settings, tokens: seq<string>)
    ensures var (st', scene') := TintStep(st, scene, item, s, tokens);
      SameShape(scene, scene') && OriginalsKept(st, st') && (StoreValid(st) ==> StoreValid(st'))
  {
  }

  /**
   * A tint pass changes only colours, never overwrites a recorded original,
   * and keeps the store's tracked lists duplicate-free and covered.
   */
  lemma {:induction false} TintPassShape(st: TintStore, scene: Scene, work: seq<Item>, s: Settings, tokens: seq<string>)
    ensures var (st', scene') := TintPass(st, scene, work, s, tokens);
      SameShape(scene, scene') && OriginalsKept(st, st') && (StoreValid(st) ==> StoreValid(st'))
    decreases |work|
  {
    if |work| > 0 {
      var (st1, scene1) := TintStep(st, scene, work[0], s, tokens);
      TintStepShape(st, scene, work[0], s, tokens);
      TintPassShape(st1, scene1, work[1..], s, tokens);
    }
  }

  /** Tinting canvas after canvas changes only colours and never overwrites an original. */
  lemma ApplyToCanvasesShape(st: TintStore, scene: Scene, canvases: seq<Option<Canvas>>, s: Settings, tokens: seq<string>)
    ensures var (st', scene') := ApplyToCanvases(st, scene, canvases, s, tokens);
      SameShape(scene, scene') && OriginalsKept(st, st') && (StoreValid(st) ==> StoreValid(st'))
  {
    ApplyToCanvasesIsOnePass(st, scene, canvases, s, tokens);
    TintPassShape(st, scene, AllWork(canvases), s, tokens);
  }

  /** A settled graphic stays settled through any well-typed pass. */
  lemma {:induction false} TintPassKeepsSettled(st: TintStore, scene: Scene, work: seq<Item>, item: Item, s: Settings, tokens: seq<string>)
    requires WellTyped(work, scene) && Settled(st, scene, item, s, tokens)
    requires item.id in scene ==> item.slot == SlotOfKind(scene[item.id].kind)
    ensures var (st', scene') := TintPass(st, scene, work, s, tokens); Settled(st', scene', item, s, tokens)
    decreases |work|
  {
    if |work| > 0 {
      var (st1, scene1) := TintStep(st, scene, work[0], s, tokens);
      TintStepShape(st, scene, work[0], s, tokens);
      assert Settled(st1, scene1, item, s, tokens);
      assert WellTyped(work[1..], scene1) by {
        forall i | 0 <= i < |work[1..]| && work[1..][i].id in scene1
          ensures work[1..][i].slot == SlotOfKind(scene1[work[1..][i].id].kind)
        {
          assert work[1..][i] == work[i + 1];
        }
      }
      TintPassKeepsSettled(st1, scene1, work[1..], item, s, tokens);
    }
  }

  /** After a well-typed pass every graphic of its work list is settled. */
  lemma {:induction false} TintPassSettles(st: TintStore, scene: Scene, work: seq<Item>, s: Settings, tokens: seq<string>)
    requires WellTyped(work, scene)
    ensures var (st', scene') := TintPass(st, scene, work, s, tokens); AllSettled(st', scene', work, s, tokens)
    decreases |work|
  {
    if |work| > 0 {
      var (st1, scene1) := TintStep(st, scene, work[0], s, tokens);
      TintStepShape(st, scene, work[0], s, tokens);
      assert Settled(st1, scene1, work[0], s, tokens);
      assert WellTyped(work[1..], scene1) by {
        forall i | 0 <= i < |work[1..]| && work[1..][i].id in scene1
          ensures work[1..][i].slot == SlotOfKind(scene1[work[1..][i].id].kind)
        {
          assert work[1..][i] == work[i + 1];
        }
      }
      TintPassSettles(st1, scene1, work[1..], s, tokens);
      TintPassKeepsSettled(st1, scene1, work[1..], work[0], s, tokens);
      var (st', scene') := TintPass(st, scene, work, s, tokens);
      forall i | 0 <= i < |work|
        ensures Settled(st', scene', work[i], s, tokens)
      {
        if i > 0 {
          assert work[i] == work[1..][i - 1];
        }
      }
    }
  }

  /**
   * A graphic that the cascade does not tint, or that no entry of the work
   * list names, leaves a pass exactly as it entered it.
   */
  lemma {:induction false} TintPassSkipsUntinted(st: TintStore, scene: Scene, work: seq<Item>, s: Settings, tokens: seq<string>, id: int)
    requires id in scene
    requires Decide(s, tokens, scene[id]).NoTint? || forall i :: 0 <= i < |work| ==> work[i].id != id
    ensures id in TintPass(st, scene, work, s, tokens).1
    ensures TintPass(st, scene, work, s, tokens).1[id] == scene[id]
    decreases |work|
  {
    TintPassShape(st, scene, work, s, tokens);
    if |work| > 0 {
      var (st1, scene1) := TintStep(st, scene, work[0], s, tokens);
      assert scene1[id] == scene[id];
      assert Decide(s, tokens, scene[id]).NoTint? || forall i :: 0 <= i < |work[1..]| ==> work[1..][i].id != id by {
        if !Decide(s, tokens, scene[id]).NoTint? {
          forall i | 0 <= i < |work[1..]|
            ensures work[1..][i].id != id
          {
            assert work[1..][i] == work[i + 1];
          }
        }
      }
      TintPassSkipsUntinted(st1, scene1, work[1..], s, tokens, id);
    }
  }

  /** A pass over graphics that are all settled is a no-op. */
  lemma {:induction false} SettledPassIsNoOp(st: TintStore, scene: Scene, work: seq<Item>, s: Settings, tokens: seq<string>)
    requires AllSettled(st, scene, work, s, tokens)
    ensures TintPass(st, scene, work, s, tokens) == (st, scene)
    decreases |work|
  {
    if |work| > 0 {
      var item := work[0];
      assert Settled(st, scene, item, s, tokens);
      if item.id in scene && Decide(s, tokens, scene[item.id]).TintWith? {
        var g := scene[item.id];
        assert scene[item.id := g.(color := g.color)] == scene;
      }
      assert TintStep(st, scene, item, s, tokens) == (st, scene);
      assert AllSettled(st, scene, work[1..], s, tokens) by {
        forall i | 0 <= i < |work[1..]|
          ensures Settled(st, scene, work[1..][i], s, tokens)
        {
          assert work[1..][i] == work[i + 1];
        }
      }
      SettledPassIsNoOp(st, scene, work[1..], s, tokens);
    }
  }

  /**
   * No drift: running the same well-typed pass twice with unchanged settings
   * leaves the store and every colour exactly as one run left them.
   */
  lemma TintPassIdempotent(st: TintStore, scene: Scene, work: seq<Item>, s: Settings, tokens: seq<string>)
    requires WellTyped(work, scene)
    ensures var (st1, scene1) := TintPass(st, scene, work, s, tokens);
      TintPass(st1, scene1, work, s, tokens) == (st1, scene1)
  {
    TintPassSettles(st, scene, work, s, tokens);
    var (st1, scene1) := TintPass(st, scene, work, s, tokens);
    SettledPassIsNoOp(st1, scene1, work, s, tokens);
  }

  // ---------------------------------------------------------------- restore

  function PutColor(g: Graphic, c: Color): Graphic {
    g.(color := c)
  }

  /** The colours RestoreTintOnly leaves: image originals first, then raw-image originals. */
  function RestoredTint(st: TintStore, scene: Scene): Scene {
    var afterImages := Restored(st.images.originals, st.images.tracked, scene, PutColor);
    Restored(st.raws.originals, st.raws.tracked, afterImages, PutColor)
  }

  /** The store after RestoreTintOnly: destroyed graphics dropped from the tracked lists, originals kept. */
  function PrunedTint(st: TintStore, scene: Scene): TintStore {
    TintStore(TintTable(st.images.originals, LiveOnly(st.images.tracked, scene)),
              TintTable(st.raws.originals, LiveOnly(st.raws.tracked, scene)))
  }

  /**
   * ThemeApplier.RestoreTintOnly: every live tracked graphic gets its
   * recorded original back, destroyed entries leave the tracked lists, and
   * the originals themselves stay.
   */
  method RestoreTintOnly(st: TintStore, scene: Scene) returns (st': TintStore, scene': Scene)
    requires StoreValid(st)
    ensures st' == PrunedTint(st, scene) && StoreValid(st')
    ensures scene' == RestoredTint(st, scene)
  {
    var keptImages, afterImages := RestoreTracked(st.images.originals, st.images.tracked, scene, PutColor);
    var keptRaws, afterRaws := RestoreTracked(st.raws.originals, st.raws.tracked, afterImages, PutColor);
    assert LiveOnly(st.raws.tracked, afterImages) == LiveOnly(st.raws.tracked, scene) by {
      LiveOnlySameKeys(st.raws.tracked, scene, afterImages);
    }
    st' := TintStore(TintTable(st.images.originals, keptImages), TintTable(st.raws.originals, keptRaws));
    scene' := afterRaws;
  }

  /**
   * After a restore every live tracked graphic shows its recorded original
   * (the raw-image table's, when both tables track it) and every other
   * graphic keeps its colour.
   */
  lemma RestoreShowsOriginals(st: TintStore, scene: Scene)
    requires StoreValid(st)
    ensures var scene' := RestoredTint(st, scene);
      && SameShape(scene, scene')
      && (forall id :: id in scene && id in st.raws.tracked ==> scene'[id].color == st.raws.originals[id])
      && (forall id :: id in scene && id in st.images.tracked && id !in st.raws.tracked ==>
            scene'[id].color == st.images.originals[id])
      && (forall id :: id in scene && id !in st.images.tracked && id !in st.raws.tracked ==> scene'[id] == scene[id])
  {
  }

  /** Restoring twice is restoring once, store and colours alike. */
  lemma RestoreTwiceIsOnce(st: TintStore, scene: Scene)
    requires StoreValid(st)
    ensures var st1, scene1 := PrunedTint(st, scene), RestoredTint(st, scene);
      PrunedTint(st1, scene1) == st1 && RestoredTint(st1, scene1) == scene1
  {
    var st1, scene1 := PrunedTint(st, scene), RestoredTint(st, scene);
    RestoreShowsOriginals(st, scene);
    LiveOnlyIdempotent(st.images.tracked, scene);
    LiveOnlyIdempotent(st.raws.tracked, scene);
    LiveOnlySameKeys(st1.images.tracked, scene, scene1);
    LiveOnlySameKeys(st1.raws.tracked, scene, scene1);
    RestoreOverRestored(st, scene);
  }

  /** The colour half of RestoreTwiceIsOnce: a second restore over the pruned store rewrites what is already shown. */
  lemma RestoreOverRestored(st: TintStore, scene: Scene)
    requires StoreValid(st)
    ensures RestoredTint(PrunedTint(st, scene), RestoredTint(st, scene)) == RestoredTint(st, scene)
  {
    var st1, scene1 := PrunedTint(st, scene), RestoredTint(st, scene);
    RestoreShowsOriginals(st, scene);
    var again := RestoredTint(st1, scene1);
    assert again.Keys == scene1.Keys;
    forall id | id in scene1
      ensures again[id] == scene1[id]
    {
      assert id in st1.images.tracked <==> id in st.images.tracked;
      assert id in st1.raws.tracked <==> id in st.raws.tracked;
    }
  }

  lemma {:induction false} LiveOnlyIdempotent(ids: seq<int>, scene: Scene)
    ensures LiveOnly(LiveOnly(ids, scene), scene) == LiveOnly(ids, scene)
    decreases |ids|
  {
    if |ids| > 0 {
      LiveOnlyIdempotent(ids[1..], scene);
      if ids[0] in scene {
        assert ([ids[0]] + LiveOnly(ids[1..], scene))[1..] == LiveOnly(ids[1..], scene);
      }
    }
  }

  /**
   * Round trip: tinting a graphic for the first time and then restoring the
   * store gives the graphic back exactly as it was.
   */
  lemma TintThenRestore(st: TintStore, scene: Scene, slot: Slot, id: int, target: Color, strength: real)
    requires StoreValid(st) && id in scene
    requires id !in TableOf(st, slot).originals
    requires id !in TableOf(st, if slot == ImageSlot then RawSlot else ImageSlot).tracked
    ensures var (t', scene') := TintGraphic(TableOf(st, slot), scene, id, target, strength);
      RestoredTint(WithTable(st, slot, t'), scene')[id] == scene[id]
  {
    var (t', scene') := TintGraphic(TableOf(st, slot), scene, id, target, strength);
    var st' := WithTable(st, slot, t');
    assert id in TableOf(st', slot).tracked;
    RestoreShowsOriginals(st', scene');
  }

  // ---------------------------------------------------------------- round trip

  function OtherSlot(slot: Slot): Slot {
    if slot == ImageSlot then RawSlot else ImageSlot
  }

  /**
   * What the store promises about one graphic relative to the scene before
   * any tinting (`scene0`): only the colour may differ, a graphic with no
   * recorded original is exactly as it was, a recorded original is the
   * pre-tint colour and is on the tracked list, and the other table has no
   * original for it.
   */
  predicate ConsistentAt(st: TintStore, scene0: Scene, scene: Scene, id: int)
    requires id in scene0 && id in scene
  {
    var g0 := scene0[id];
    var own := TableOf(st, SlotOfKind(g0.kind));
    && id !in TableOf(st, OtherSlot(SlotOfKind(g0.kind))).originals
    && scene[id] == g0.(color := scene[id].color)
    && (id in own.originals ==> own.originals[id] == g0.color && id in own.tracked)
    && (id !in own.originals ==> scene[id] == g0)
  }

  predicate Consistent(st: TintStore, scene0: Scene, scene: Scene) {
    && scene.Keys == scene0.Keys
    && forall id :: id in scene0 ==> ConsistentAt(st, scene0, scene, id)
  }

  lemma EmptyStoreConsistent(scene: Scene)
    ensures Consistent(EmptyStore(), scene, scene)
  {
  }

  /** Restoring a consistent store gives back the scene as it was before any tinting. */
  lemma RestoreRecovers(st: TintStore, scene0: Scene, scene: Scene)
    requires Consistent(st, scene0, scene)
    ensures RestoredTint(st, scene) == scene0
  {
    var r := RestoredTint(st, scene);
    forall id | id in scene0
      ensures r[id] == scene0[id]
    {
      assert ConsistentAt(st, scene0, scene, id);
    }
  }

  lemma TintStepConsistent(st: TintStore, scene0: Scene, scene: Scene, item: Item, s: Settings, tokens: seq<string>)
    requires Consistent(st, scene0, scene)
    requires item.id in scene0 ==> item.slot == SlotOfKind(scene0[item.id].kind)
    ensures var (st', scene') := TintStep(st, scene, item, s, tokens); Consistent(st', scene0, scene')
  {
    var (st', scene') := TintStep(st, scene, item, s, tokens);
    if item.id in scene {
      assert ConsistentAt(st, scene0, scene, item.id);
      forall x | x in scene0
        ensures ConsistentAt(st', scene0, scene', x)
      {
        assert ConsistentAt(st, scene0, scene, x);
      }
    }
  }

  lemma {:induction false} TintPassConsistent(st: TintStore, scene0: Scene, scene: Scene, work: seq<Item>, s: Settings, tokens: seq<string>)
    requires Consistent(st, scene0, scene) && WellTyped(work, scene0)
    ensures var (st', scene') := TintPass(st, scene, work, s, tokens); Consistent(st', scene0, scene')
    decreases |work|
  {
    if |work| > 0 {
      TintStepConsistent(st, scene0, scene, work[0], s, tokens);
      var (st1, scene1) := TintStep(st, scene, work[0], s, tokens);
      assert WellTyped(work[1..], scene0) by {
        forall i | 0 <= i < |work[1..]| && work[1..][i].id in scene0
          ensures work[1..][i].slot == SlotOfKind(scene0[work[1..][i].id].kind)
        {
          assert work[1..][i] == work[i + 1];
        }
      }
      TintPassConsistent(st1, scene0, scene1, work[1..], s, tokens);
    }
  }

  /**
   * Tint/restore round trip: from a consistent store (the empty store, say),
   * tinting every canvas and then restoring gives every graphic back the
   * colour it had before any tinting.
   */
  lemma TintRoundTrip(st: TintStore, scene0: Scene, scene: Scene, canvases: seq<Option<Canvas>>, s: Settings, tokens: seq<string>)
    requires Consistent(st, scene0, scene) && CanvasesTyped(canvases, scene0)
    ensures var (st', scene') := ApplyToCanvases(st, scene, canvases, s, tokens);
      Consistent(st', scene0, scene') && RestoredTint(st', scene') == scene0
  {
    ApplyToCanvasesIsOnePass(st, scene, canvases, s, tokens);
    AllWorkWellTyped(canvases, scene0);
    TintPassConsistent(st, scene0, scene, AllWork(canvases), s, tokens);
    var (st', scene') := ApplyToCanvases(st, scene, canvases, s, tokens);
    RestoreRecovers(st', scene0, scene');
  }

  // ---------------------------------------------------------------- reactive tint

  /**
   * ThemeApplier.TintIncomingStable: for an Image or RawImage and a strength
   * above 0.0001 the result is the blend of the graphic's recorded original
   * (the incoming colour becomes the original if there is none yet) with the
   * incoming alpha; in every other case the incoming colour passes unchanged.
   */
  function TintIncomingStable(st: TintStore, s: Settings, kind: Kind, id: int, incoming: Color): (r: (Color, TintStore))
    ensures Clamp01(s.strength) <= 0.0001 || !IsImageLike(kind) ==> r == (incoming, st)
    ensures Clamp01(s.strength) > 0.0001 && IsImageLike(kind) ==>
      var t' := TableOf(r.1, SlotOfKind(kind));
      && id in t'.originals
      && SameRgb(r.0, BlendMultiply(t'.originals[id], TintColor(s), Clamp01(s.strength)))
      && r.0.a == incoming.a
    ensures IsImageLike(kind) && id in TableOf(st, SlotOfKind(kind)).originals ==> r.1 == st
    ensures Clamp01(s.strength) > 0.0001 && IsImageLike(kind) && id !in TableOf(st, SlotOfKind(kind)).originals ==>
      TableOf(r.1, SlotOfKind(kind)).originals[id] == incoming
    ensures StoreValid(st) ==> StoreValid(r.1)
  {
    var strength := Clamp01(s.strength);
    if strength <= 0.0001 || !IsImageLike(kind) then (incoming, st)
    else
      var slot := SlotOfKind(kind);
      var t := TableOf(st, slot);
      var t' := if id in t.originals then t else TintTable(t.originals[id := incoming], t.tracked + [id]);
      assert TableValid(t) && id !in t.originals ==> NoDup(t'.tracked) by {
        if TableValid(t) && id !in t.originals {
          forall i, j | 0 <= i < j < |t'.tracked|
            ensures t'.tracked[i] != t'.tracked[j]
          {
            if j == |t.tracked| {
              assert t'.tracked[i] == t.tracked[i];
            } else {
              assert t'.tracked[i] == t.tracked[i] && t'.tracked[j] == t.tracked[j];
            }
          }
        }
      }
      var res := WithAlpha(BlendMultiply(t'.originals[id], TintColor(s), strength), incoming.a);
      (res, WithTable(st, slot, t'))
  }

  /** The game assigning colours `writes` one after another through the hook. */
  function HostWrites(st: TintStore, s: Settings, kind: Kind, id: int, writes: seq<Color>): (Color, TintStore)
    requires |writes| > 0
    decreases |writes|
  {
    var (c, st1) := TintIncomingStable(st, s, kind, id, writes[0]);
    if |writes| == 1 then (c, st1) else HostWrites(st1, s, kind, id, writes[1..])
  }

  /**
   * No tint stacking: however many colours the game assigns, the displayed
   * RGB is the blend of the one recorded original, the alpha is that of the
   * last assignment, and the store is as the first assignment left it.
   */
  lemma {:induction false} NoTintStacking(st: TintStore, s: Settings, kind: Kind, id: int, writes: seq<Color>)
    requires |writes| > 0 && IsImageLike(kind) && Clamp01(s.strength) > 0.0001
    ensures var (c, st') := HostWrites(st, s, kind, id, writes);
      var first := TintIncomingStable(st, s, kind, id, writes[0]);
      && st' == first.1
      && SameRgb(c, first.0)
      && c.a == writes[|writes| - 1].a
    decreases |writes|
  {
    if |writes| > 1 {
      var (c1, st1) := TintIncomingStable(st, s, kind, id, writes[0]);
      NoTintStacking(st1, s, kind, id, writes[1..]);
    }
  }

  /**
   * The hook agrees with the pass: once the pass has tinted an image with the
   * UI tint, a colour the game assigns comes out with the same RGB the pass
   * wrote.
   */
  lemma HookAgreesWithPass(st: TintStore, scene: Scene, id: int, s: Settings, incoming: Color)
    requires id in scene && IsImageLike(scene[id].kind) && Clamp01(s.strength) > 0.0001
    requires id in TableOf(st, SlotOfKind(scene[id].kind)).originals
    requires scene[id].color ==
      BlendMultiply(TableOf(st, SlotOfKind(scene[id].kind)).originals[id], TintColor(s), Clamp01(s.strength))
    ensures SameRgb(TintIncomingStable(st, s, scene[id].kind, id, incoming).0, scene[id].color)
  {
  }

  /**
   * ThemeApplier.TintIncoming, the stateless variant: the incoming colour
   * itself is blended toward its product with the UI tint, alpha kept.  On a
   * graphic seen for the first time it agrees with TintIncomingStable.
   */
  function TintIncoming(s: Settings, original: Color): (r: Color)
    ensures Clamp01(s.strength) <= 0.0001 ==> r == original
    ensures r.a == original.a
    ensures Clamp01(s.strength) > 0.0001 ==> SameRgb(r, BlendMultiply(original, TintColor(s), Clamp01(s.strength)))
  {
    var strength := Clamp01(s.strength);
    if strength <= 0.0001 then original
    else
      var tint := TintColor(s);
      var mul := Color(original.r * tint.r, original.g * tint.g, original.b * tint.b, original.a);
      LerpRgbOnly(original, mul, Multiply(original, tint), strength);
      assert BlendMultiply(original, tint, strength) == Lerp(original, Multiply(original, tint), strength);
      WithAlpha(Lerp(original, mul, strength), original.a)
  }

  lemma TintIncomingMatchesFirstWrite(st: TintStore, s: Settings, kind: Kind, id: int, incoming: Color)
    requires IsImageLike(kind) && id !in TableOf(st, SlotOfKind(kind)).originals
    ensures TintIncomingStable(st, s, kind, id, incoming).0 == TintIncoming(s, incoming)
  {
  }

  /**
   * No drift across ApplyToAllCanvases: tinting every canvas a second time
   * with unchanged settings and tokens changes neither store nor colours.
   */
  lemma ApplyToCanvasesIdempotent(st: TintStore, scene: Scene, canvases: seq<Option<Canvas>>, s: Settings, tokens: seq<string>)
    requires CanvasesTyped(canvases, scene)
    ensures var (st1, scene1) := ApplyToCanvases(st, scene, canvases, s, tokens);
      ApplyToCanvases(st1, scene1, canvases, s, tokens) == (st1, scene1)
  {
    ApplyToCanvasesIsOnePass(st, scene, canvases, s, tokens);
    AllWorkWellTyped(canvases, scene);
    TintPassIdempotent(st, scene, AllWork(canvases), s, tokens);
    var (st1, scene1) := ApplyToCanvases(st, scene, canvases, s, tokens);
    ApplyToCanvasesIsOnePass(st1, scene1, canvases, s, tokens);
  }
}
